=== FILE: README.md ===
# cursor_tools in Dafny

A model of `cursor_tools`, a small Python package of command-line "tools".
Every tool has a name, a description, a declaration of its parameters and an
`execute` operation. The model covers:

- the shared required-parameter check of `BaseTool`;
- `ToolRegistry`, which keeps tools by name in registration order and
  discovers the tool classes of a package;
- the `run` and `list-tools` commands of the CLI;
- `ExampleTool`, which echoes its `message`;
- `WeatherTool`, which asks a weather service about a US city. The model
  covers its pure parts: the API-key check, the request it builds, the
  masking of the key in logged text, the classification of the reply by
  status code, the reading of the JSON body, and the wrapping of errors.

Modules, in dependency order:

| module | file | models |
|---|---|---|
| `Wrappers` | wrappers.dfy | `Option` and `Result` (a raised exception is a `Failure`) |
| `Strings` | strings.dfy | `str.join`, `str.split("=", 1)` search, `str.replace`, `"*" * n`, decimal `str(int)` |
| `Dicts` | dicts.dfy | a Python `dict` with string keys: the entries plus their insertion order |
| `Base` | base.dfy | `BaseTool`: instances, parameter declarations, `validate_params` |
| `Example` | example_tool.dfy | `ExampleTool` |
| `Weather` | weather.dfy | `WeatherTool` |
| `Tools` | tools.dfy | dispatch from an instance to its class's `parameters` and `execute` |
| `Registry` | registry.dfy | `ToolRegistry`, including `discover_tools` over described modules |
| `Cli` | cli.dfy | `run`, `list-tools`, and discovery of the `cursor_tools` package itself |

How the outside world is modelled:

- A raised exception is a `Failure` carrying a `ToolError`. `KeyError(k)`
  is kept apart from every other exception, because `run` treats the two
  differently. Any other exception is `Raised(message)`, carrying `str(e)`.
- The value of `WEATHER_API_KEY` is an input, `Option<string>`, fixed
  when `WeatherTool()` is constructed.
- The HTTP exchange is a parameter `server: Request -> Response`. A
  response is a status code and a body. The body is either decoded JSON
  or the text of the decoder's error. Every non-string JSON value carries
  the text Python's `str()` gives it, so messages that embed such a value
  are modelled exactly without re-implementing Python's `repr`.
- Discovery works over module descriptors (`ModuleInfo`, `MemberInfo`),
  which record what `pkgutil.iter_modules` and `inspect.getmembers` report.
  A member records the instance its constructor returns, or that the
  constructor raises.
- `run` is modelled by what it shows: `ResultShown(value)` or
  `ErrorShown(message)`.

Two behaviours of the source are modelled as written:

- A `KeyError` raised inside `execute` is caught by the same handler as an
  unknown tool name. So `run weather` with a valid key and no `city` shows
  "Tool 'weather' not found" (`Cli.MissingCityShownAsNotFound`).
- `httpx.TimeoutException` is a subclass of `httpx.RequestError`. The
  "Request timed out" handler therefore never runs. Transport errors are
  not modelled at all (see below).

## Model

| member | source | states |
|---|---|---|
| Base.Init | cursor_tools/base.py:7-9 | the instance keeps exactly the name and description it was constructed with |
| Base.MissingAmong | cursor_tools/base.py:42-47 | the filtered list holds exactly the listed names that are declared required and absent from the parameters, and holds none twice |
| Base.ValidateParams | cursor_tools/base.py:42-51 | the result is None exactly when no required parameter is missing; otherwise it is the fixed prefix followed by ", "-joined names that list every missing required parameter once and nothing else |
| Base.ValidateParamsNamesMissing | cursor_tools/base.py:47-49 | each missing required parameter appears in the error message |
| Base.ValidateParamsPresenceOnly | cursor_tools/base.py:42-48 | only which declared names are present matters: extra keys and argument values never change the outcome |
| Base.MissingAmongPresenceOnly | cursor_tools/base.py:47 | the list of missing names depends only on which declared names are keys of the parameters |
| Base.ValidateParamsMonotone | cursor_tools/base.py:47-51 | supplying more arguments never turns a pass into a failure |
| Base.UnflaggedIsOptional | cursor_tools/base.py:42-45 | a parameter not flagged "required" is never reported, so a declaration with no flag always passes |
| Base.SingleRequired | cursor_tools/base.py:42-51 | with exactly one declared parameter, required, validation passes exactly when it is given and otherwise names it alone |
| Strings.JoinContainsEach | cursor_tools/base.py:49 | every part of a joined list occurs in the joined text |
| Strings.FirstIndexOf | cursor_tools/cli.py:43-44 | finds the first occurrence of the character, and finds none exactly when it does not occur |
| Strings.Repeat | cursor_tools/weather.py:78 | `"*" * n` is n characters, every one of them the repeated character |
| Strings.ReplaceAll | cursor_tools/weather.py:85-88 | replacing a text by itself leaves the string unchanged |
| Strings.ReplaceAllSameLength | cursor_tools/weather.py:85-88 | replacing a pattern by a text of the same length keeps the length |
| Strings.MaskedPrefix | cursor_tools/weather.py:85-88 | masking keeps the length, and each prefix of the result is either the original prefix or holds an asterisk |
| Strings.MaskedHasNoKey | cursor_tools/weather.py:85-88 | after every occurrence of a non-empty, asterisk-free key is replaced by asterisks, the key no longer occurs |
| Strings.NatToString | cursor_tools/weather.py:99-102 | a status code prints as a non-empty string of decimal digits with no leading zero |
| Strings.NatToStringRoundTrip | cursor_tools/weather.py:99-102 | reading the printed digits back gives the status code |
| Dicts.Empty | cursor_tools/registry.py:12-13 | a new dict holds no key |
| Dicts.Get | cursor_tools/registry.py:35 | the lookup succeeds exactly for the stored keys and gives the stored value |
| Dicts.Put | cursor_tools/registry.py:21 | the assigned key maps to the new value and every other key is unchanged; a known key keeps its position and a new key goes last |
| Dicts.Values | cursor_tools/registry.py:43 | the values are listed in key insertion order, one for each key |
| Dicts.Extensionality | cursor_tools/registry.py:21 | two dicts with the same key order and the same lookups are equal |
| Example.Instance | cursor_tools/example_tool.py:9-12 | the tool is named "example_tool", with the echo description |
| Example.Parameters | cursor_tools/example_tool.py:26-39 | exactly one parameter, `message`, and it is required |
| Example.Execute | cursor_tools/example_tool.py:14-24 | the reply starts with "Echo: ", and stripping that prefix gives the message, or "" when none was given |
| Example.ExecuteWithoutMessage | cursor_tools/example_tool.py:23-24 | with no `message`, the reply is exactly "Echo: " |
| Example.ExecuteIgnoresOtherArgs | cursor_tools/example_tool.py:23-24 | arguments other than `message` never change the reply |
| Example.ValidateReportsMessage | cursor_tools/example_tool.py:33-38 | validating no arguments reports "Missing required parameters: message"; any argument set that contains `message` passes |
| Weather.Instance | cursor_tools/weather.py:20-28 | the tool is named "weather", has its description, and keeps the key the environment held |
| Weather.ValidateApiKey | cursor_tools/weather.py:30-38 | the check passes, returning the key, exactly when a key of at least 16 characters is present; an absent or empty key is "not found", and a shorter one has an invalid format |
| Weather.Parameters | cursor_tools/weather.py:40-50 | exactly one parameter, `city`, and it is required |
| Weather.LocationQuery | cursor_tools/weather.py:57 | the query is the city followed by ", United States of America" |
| Weather.BuildRequest | cursor_tools/weather.py:70-75 | the request targets `/current.json` of the service URL with exactly the parameters key, q, aqi in that order: the key, the location query, and "no" |
| Weather.MaskParams | cursor_tools/weather.py:78 | the logged parameters keep their order; the key becomes asterisks of the same length; every other parameter is unchanged |
| Weather.MaskUrl | cursor_tools/weather.py:85-88 | the logged URL has the original's length and no longer contains a non-empty, asterisk-free key |
| Weather.Subscript | cursor_tools/weather.py:108-113 | indexing succeeds exactly on an object that has the key; a missing key is a KeyError naming it; indexing a non-object is a TypeError |
| Weather.GetOr | cursor_tools/weather.py:95-97 | `.get` returns the field or the default on an object, and is an AttributeError on any other value |
| Weather.ApiErrorDetail | cursor_tools/weather.py:95-97 | the detail of a 400 body is the service's `error.message`, or "Unknown error" when the body has no "error" or the error object has no "message"; a body or error value that is not an object raises AttributeError |
| Weather.ExtractReport | cursor_tools/weather.py:107-114 | the result dictionary is built exactly when all six paths (`location.name`, `location.region`, `current.temp_f`, `current.condition.text`, `current.humidity`, `current.wind_mph`) resolve, and its six fields are then the values found at those paths; extra fields are never read |
| Weather.FirstFailureRaised | cursor_tools/weather.py:107-114 | when the dictionary cannot be built, the error raised is that of the first path, in reading order, that fails to resolve |
| Weather.ReadFailure | cursor_tools/weather.py:121-129 | a KeyError while reading the body becomes "Missing data in API response: " with the key in single quotes, as `repr` prints the fixed field names read here; any other error becomes "Unexpected error: " with its message |
| Weather.Classify | cursor_tools/weather.py:91-128 | only status 200 yields a report; every failure is a plain error; 401 is "Invalid API key"; every status other than 200, 400 and 401 is reported by its number; a 200 or 400 body that cannot be decoded is "Unexpected error: " with the decoder's message; a 400 body whose `.get` fails (it, or its "error" value, is not an object) is reported through the same unexpected-error wrapping; a 400 body that can be read gives "API error: " with its detail |
| Weather.BadRequestMessage | cursor_tools/weather.py:93-98 | a 400 reply whose body decodes to a JSON object reports "API error: " with the service's message, or with "Unknown error" when the error object or its message is absent |
| Weather.OkReplyReadsPaths | cursor_tools/weather.py:104-114 | for any decoded 200 body, a report is returned exactly when the six paths resolve, and it holds the values found at them |
| Weather.FirstFailureReported | cursor_tools/weather.py:107-129 | a decoded 200 body whose reading fails reports the error of the first failing path: a KeyError as missing data, anything else as an unexpected error |
| Weather.FirstMissingKeyReported | cursor_tools/weather.py:107-124 | when the first failing read is a missing key `k`, the reply is reported as "Missing data in API response: 'k'" |
| Weather.ReportRoundTrip | cursor_tools/weather.py:104-114 | a 200 reply whose body encodes a report yields exactly that report |
| Weather.MissingLocationReported | cursor_tools/weather.py:108-124 | a 200 reply whose body lacks "location" reports "Missing data in API response: 'location'" |
| Weather.MissingCurrentReported | cursor_tools/weather.py:107-124 | a 200 reply with a complete "location" but no "current" reports "Missing data in API response: 'current'" |
| Weather.Execute | cursor_tools/weather.py:52-57 | a bad key fails with the key error before anything else; a valid key with no `city` raises KeyError("city"); a report is only produced with a valid key and a city |
| Weather.BadKeyReportedFirst | cursor_tools/weather.py:53-55 | with a bad key and no city, the key problem is the one reported |
| Weather.ExecuteAsksForCity | cursor_tools/weather.py:55-82 | with a valid key and a city, the service is asked about that city in the United States, and its reply is classified |
| Tools.Parameters | cursor_tools/example_tool.py:26-39 | each tool declares exactly one parameter, required: `message` for the example tool (example_tool.py:33-39), `city` for the weather tool (weather.py:40-50) |
| Tools.ValidateRequired | cursor_tools/base.py:42-51 | for either tool, `validate_params` passes exactly when the tool's required parameter is given, and otherwise reports "Missing required parameters: " followed by that name |
| Tools.Execute | cursor_tools/example_tool.py:14 | a keyword named `self` fails the call with the TypeError "<Class>.execute() got multiple values for argument 'self'", since both tools declare `execute(self, **kwargs)` (also weather.py:52); otherwise the example tool returns its echo as text, and the weather tool returns its report or passes on its error unchanged |
| Registry.New | cursor_tools/registry.py:12-13 | a new registry lists no names and finds no tool, failing with KeyError for every name |
| Registry.GetTool | cursor_tools/registry.py:23-35 | the lookup succeeds exactly for registered names, returning the tool of that name; otherwise it raises KeyError(name) |
| Registry.RegisterTool | cursor_tools/registry.py:15-21 | the tool is then found under its name and every other name finds what it found before; a new name is listed last and a known one keeps its place |
| Registry.GetAvailableTools | cursor_tools/registry.py:37-43 | one tool per registered name, in registration order, no name twice, each the tool `get_tool` returns |
| Registry.RegisterAllLookup | cursor_tools/registry.py:15-21 | after several registrations, each name finds the last tool registered under it, or what it found before if none was |
| Registry.RegisterAllNames | cursor_tools/registry.py:15-21 | after several registrations, the names are the old ones followed by each new name where it first occurs |
| Registry.NamesTwice | cursor_tools/registry.py:15-21 | registering the same tools a second time leaves the names and their order unchanged |
| Registry.LookupTwice | cursor_tools/registry.py:15-21 | registering the same tools a second time leaves every lookup unchanged |
| Registry.RegisterAllTwice | cursor_tools/registry.py:15-21 | registering the same tools a second time leaves the registry unchanged |
| Registry.RegisterAllAppend | cursor_tools/registry.py:15-21 | registering one list and then another is the same as registering the two lists in one pass |
| Registry.MemberPlanAccepted | cursor_tools/registry.py:56-60 | only proper subclasses of `BaseTool` are instantiated; a module's pass fails exactly when one of them cannot be constructed; otherwise all of them are registered |
| Registry.DiscoverMembers | cursor_tools/registry.py:56-60 | scanning a module's members keeps every registered name in its place and only adds names after them; it stops only at an accepted class whose constructor fails, naming that member; a module with no tool class leaves the registry as it was |
| Registry.DiscoverModules | cursor_tools/registry.py:45-60 | discovery keeps every registered name in its place and only adds names after them; an import failure names a module of the package that is not a sub-package; a package of sub-packages only changes nothing |
| Registry.DiscoverMembersIsFold | cursor_tools/registry.py:56-60 | scanning a module's members is registering that module's list of instances, in member order |
| Registry.DiscoverIsFold | cursor_tools/registry.py:45-60 | discovery is registering, in order, a list of instances that depends only on the package; it stops at the first failed import or construction |
| Registry.DiscoverTwice | cursor_tools/registry.py:45-60 | discovering the same package again yields the same registry and the same ending |
| Registry.HelpersIgnored | cursor_tools/registry.py:56-60 | a member that is not a proper tool class has no effect on a module's scan, wherever it stands in the member list |
| Cli.SplitArg | cursor_tools/cli.py:43-44 | a token without "=" is skipped; any other token splits into a key with no "=" and a value, which rejoin into the token |
| Cli.SplitUnique | cursor_tools/cli.py:44 | a token splits around its first "=" in only one way |
| Cli.SplitArgRoundTrip | cursor_tools/cli.py:44 | a key without "=" joined to any value by "=" splits back into that key and value |
| Cli.ParseArgs | cursor_tools/cli.py:38-45 | every keyword argument is spelled out by some token `key=value`, and no key holds "=" |
| Cli.ParseArgsKeys | cursor_tools/cli.py:38-45 | the keyword arguments have exactly the keys that some token sets |
| Cli.ParseArgsLastWins | cursor_tools/cli.py:42-45 | each keyword argument holds the value of the last token that sets its key |
| Cli.BareTokenIgnored | cursor_tools/cli.py:43 | a token without "=" contributes nothing, wherever it stands |
| Cli.ParseArgsBareLast | cursor_tools/cli.py:43 | a last token without "=" leaves the keyword arguments as the earlier tokens made them |
| Cli.Run | cursor_tools/cli.py:34-53 | an unknown tool is shown as "not found"; a result is shown exactly when `execute` succeeds, and it is that result; a KeyError from `execute` is also shown as "not found"; any other error, the `self` collision included, shows its message |
| Cli.EchoScenario | cursor_tools/cli.py:34-48 | `run example_tool message=hello` shows "Echo: hello" |
| Cli.MissingCityShownAsNotFound | cursor_tools/cli.py:47-51 | `run weather` with a valid key and no city shows "Tool 'weather' not found" |
| Cli.MissingKeyShown | cursor_tools/cli.py:47-53 | `run weather` with no key in the environment shows the missing-key message whatever the other arguments; with a `self=` token it shows the TypeError of the call instead |
| Cli.SelfArgumentShown | cursor_tools/cli.py:44-53 | `run example_tool self=x` shows "ExampleTool.execute() got multiple values for argument 'self'" instead of an echo |
| Cli.ListTools | cursor_tools/cli.py:22-28 | one line per registered tool, in registration order, reading "name: description" |
| Cli.PackagePlan | cursor_tools/registry.py:51-60 | in the `cursor_tools` package, exactly `ExampleTool` and then `WeatherTool` are instantiated, and nothing fails |
| Cli.PackageDiscovery | cursor_tools/cli.py:16-18 | discovering `cursor_tools` registers exactly "example_tool" and then "weather", each found under its name |

## Left out

- HTTP transport: the `httpx` client, TLS context, timeout, and the "Failed to connect" and "Request timed out" handlers. The exchange is the `server` parameter, which always answers.
- The response URL: `str(response.url)` is built by `httpx` from the request, so `Weather.MaskUrl` is stated for any URL text.
- Logging: the masked parameters and URL are modelled, but not the logger calls that print them.
- Cli.Run: the text is shown without `rich` markup parsing. In the source, a shown text holding a closing tag such as `[/x]` (an unknown tool named `[/x]`, or `message=[/x]`) makes `console.print` raise a markup error. The print inside the handler then raises again and the error escapes `run`, so "every exception is caught and shown" holds for the model only.
- Rendering: `rich` markup, the "Available Tools:" header line, and the printed form of a result (Python's `repr` of a dict). `Cli.Run` gives the value shown and `Cli.ListTools` the plain text of each line.
- `click`'s argument parsing, `--version`, and `asyncio.run`: `Cli.Run` takes the tool name and the argument tokens directly.
- `load_dotenv` and `os.getenv`: the key is the input to `Weather.Instance`.
- `weather_cli`, the separate weather command, and `cursor_tools/__init__.py`: these sit outside the modelled core.
- Floats and other non-string JSON values are opaque; only their `str()` text is modelled.
- Base.ValidateParams: lists the missing names in declaration order. Python lists them in set-iteration order, so its contract promises only some listing of exactly the missing names.
- Base.IsRequired: `required` flags other than booleans are not modelled. Any truthy value counts as required in the source.
- Tools.Execute: keyword-argument values are always strings, as the CLI passes them. Direct calls with other types are not modelled.
- Registry.DiscoverIsFold: the order of modules and members is taken from the descriptors; the alphabetical orders that `pkgutil` and `inspect` produce are not derived.
- Registry.DiscoverTwice: each class is assumed to construct the same instance every time it is called. This holds for both tools of the package.
- The error text when importing the package itself fails: only failures of its modules are modelled.
- Weather.Subscript: the `TypeError` and `AttributeError` texts follow CPython 3.11 wording.
- Weather.ReadFailure: a key is always shown as `'key'`. Python's `repr` would switch to double quotes or escapes for a key holding a quote, a backslash or a control character, but only the fixed field names of the six report paths reach it.
- Strings.ReplaceAll: its own contract states only that replacing a text by itself changes nothing. What masking does to the key is stated by `Strings.MaskedPrefix` and `Strings.MaskedHasNoKey`.

=== FILE: base.dfy ===
/**
 * The tool contract: every tool carries a name and a description, declares
 * its parameters, and shares one required-parameter check.
 */
module Base {
  import opened Wrappers
  import opened Strings
  import opened Dicts

  /**
   * One entry of a tool's `parameters` declaration. `required` is None when
   * the declaration has no "required" entry.
   */
  datatype ParamSpec = ParamSpec(typeName: string, description: string, required: Option<bool>)

  /** `spec.get("required", False)` is truthy. */
  predicate IsRequired(spec: ParamSpec) {
    spec.required == Some(true)
  }

  /** A tool's `parameters`: parameter name to specification, in declaration order. */
  type ParamDecl = Dict<ParamSpec>

  /**
   * An exception a tool operation raises: a `KeyError` for a missing key,
   * or any other exception, rendered by its message.
   */
  datatype ToolError = KeyError(key: string) | Raised(message: string)

  /**
   * The concrete tool classes. A weather tool keeps the API key it read
   * from the environment when it was constructed.
   */
  datatype Kind = Echo | WeatherLookup(apiKey: Option<string>)

  /** A tool instance. */
  datatype Tool = Tool(name: string, description: string, kind: Kind)

  /** `BaseTool.__init__`: the instance keeps exactly the name and description it was given. */
  function Init(name: string, description: string, kind: Kind): (t: Tool)
    ensures t.name == name && t.description == description && t.kind == kind
  {
    Tool(name, description, kind)
  }

  /** The names declared required that `params` has no key for. */
  function MissingRequired<V>(decl: ParamDecl, params: map<string, V>): set<string>
  {
    set n | n in decl.entries && IsRequired(decl.entries[n]) && n !in params
  }

  /** The names among `names` that are declared required and absent from `params`, in order. */
  function MissingAmong<V>(names: seq<string>, decl: ParamDecl, params: map<string, V>): (r: seq<string>)
    requires forall i :: 0 <= i < |names| ==> names[i] in decl.entries
    ensures forall i :: 0 <= i < |r| ==> r[i] in names && r[i] in MissingRequired(decl, params)
    ensures forall i :: 0 <= i < |names| && names[i] in MissingRequired(decl, params) ==> names[i] in r
    ensures (forall i, j :: 0 <= i < j < |names| ==> names[i] != names[j]) ==>
              forall i, j :: 0 <= i < j < |r| ==> r[i] != r[j]
  {
    if |names| == 0 then []
    else
      var rest := MissingAmong(names[1..], decl, params);
      assert forall i :: 0 <= i < |rest| ==> rest[i] in names[1..];
      if IsRequired(decl.entries[names[0]]) && names[0] !in params then [names[0]] + rest else rest
  }

  /** `names` lists every element of `s` exactly once. */
  predicate Enumerates(names: seq<string>, s: set<string>) {
    && (forall i, j :: 0 <= i < j < |names| ==> names[i] != names[j])
    && (forall i :: 0 <= i < |names| ==> names[i] in s)
    && (forall x :: x in s ==> x in names)
  }

  const MissingPrefix := "Missing required parameters: "

  /**
   * `BaseTool.validate_params`: None when every required parameter has a
   * key in `params`, otherwise a message listing the missing ones. Python
   * lists them in set-iteration order, which it leaves unspecified; this
   * model lists them in declaration order.
   */
  function ValidateParams<V>(decl: ParamDecl, params: map<string, V>): (r: Option<string>)
    requires decl.Valid()
    ensures r.None? <==> MissingRequired(decl, params) == {}
    ensures r.Some? ==> exists names :: Enumerates(names, MissingRequired(decl, params))
                                        && r.value == MissingPrefix + Join(names, ", ")
  {
    var missing := MissingAmong(decl.keys, decl, params);
    assert Enumerates(missing, MissingRequired(decl, params));
    if |missing| == 0 then None else Some(MissingPrefix + Join(missing, ", "))
  }

  /** A required parameter with no key in `params` is named in the message. */
  lemma ValidateParamsNamesMissing<V>(decl: ParamDecl, params: map<string, V>, n: string)
    requires decl.Valid()
    requires n in decl.entries && IsRequired(decl.entries[n]) && n !in params
    ensures ValidateParams(decl, params).Some?
    ensures Contains(ValidateParams(decl, params).value, n)
  {
    var missing := MissingRequired(decl, params);
    assert n in missing;
    var r := ValidateParams(decl, params);
    var names :| Enumerates(names, missing) && r.value == MissingPrefix + Join(names, ", ");
    assert n in names;
    var k :| 0 <= k < |names| && names[k] == n;
    JoinContainsEach(names, ", ", k);
    ContainsExtended(MissingPrefix, Join(names, ", "), "", n);
    assert MissingPrefix + Join(names, ", ") + "" == r.value;
  }

  /**
   * Only which declared names are keys of `params` matters: extra keys and
   * argument values never change the outcome.
   */
  lemma ValidateParamsPresenceOnly<V, W>(decl: ParamDecl, p: map<string, V>, q: map<string, W>)
    requires decl.Valid()
    requires forall n :: n in decl.entries ==> (n in p <==> n in q)
    ensures ValidateParams(decl, p) == ValidateParams(decl, q)
  {
    MissingAmongPresenceOnly(decl.keys, decl, p, q);
  }

  lemma {:induction false} MissingAmongPresenceOnly<V, W>(names: seq<string>, decl: ParamDecl, p: map<string, V>, q: map<string, W>)
    requires forall i :: 0 <= i < |names| ==> names[i] in decl.entries
    requires forall n :: n in decl.entries ==> (n in p <==> n in q)
    ensures MissingAmong(names, decl, p) == MissingAmong(names, decl, q)
  {
    if |names| > 0 {
      MissingAmongPresenceOnly(names[1..], decl, p, q);
    }
  }

  /** Adding keys to `params` never turns a pass into a failure. */
  lemma ValidateParamsMonotone<V>(decl: ParamDecl, p: map<string, V>, q: map<string, V>)
    requires decl.Valid()
    requires p.Keys <= q.Keys
    requires ValidateParams(decl, p).None?
    ensures ValidateParams(decl, q).None?
  {
    assert MissingRequired(decl, q) <= MissingRequired(decl, p);
  }

  /**
   * A declaration of exactly one required parameter `n`: validation passes
   * exactly when `n` is given, and otherwise names `n` alone.
   */
  lemma SingleRequired<V>(decl: ParamDecl, n: string, params: map<string, V>)
    requires decl.Valid() && decl.keys == [n] && n in decl.entries && IsRequired(decl.entries[n])
    ensures ValidateParams(decl, params) == if n in params then None else Some(MissingPrefix + n)
  {
    assert decl.keys[1..] == [];
    assert MissingAmong(decl.keys, decl, params) == if n in params then [] else [n];
    assert Join([n], ", ") == n;
  }

  /** A declaration with no "required" entry never makes a parameter required. */
  lemma UnflaggedIsOptional<V>(decl: ParamDecl, params: map<string, V>)
    requires decl.Valid()
    requires forall n :: n in decl.entries ==> decl.entries[n].required != Some(true)
    ensures ValidateParams(decl, params) == None
  {
  }
}

=== FILE: cli.dfy ===
/**
 * The command-line front end: `run` turns `key=value` tokens into keyword
 * arguments and renders the outcome, `list-tools` lists the registry, and
 * the group command discovers the tools of the package first.
 */
module Cli {
  import opened Wrappers
  import opened Strings
  import opened Base
  import opened Registry
  import opened Tools
  import Example
  import Weather

  /** `key, value = arg.split("=", 1)` for a token holding "=", None for one without. */
  function SplitArg(arg: string): (r: Option<(string, string)>)
    ensures r.None? <==> '=' !in arg
    ensures r.Some? ==> '=' !in r.value.0 && r.value.0 + "=" + r.value.1 == arg
  {
    match FirstIndexOf(arg, '=')
    case None => None
    case Some(i) =>
      assert arg == arg[..i] + "=" + arg[i + 1..];
      Some((arg[..i], arg[i + 1..]))
  }

  lemma SplitShape(a: string, b: string)
    ensures (a + "=" + b)[|a|] == '='
    ensures forall i :: 0 <= i < |a| ==> (a + "=" + b)[i] == a[i]
    ensures (a + "=" + b)[..|a|] == a && (a + "=" + b)[|a| + 1..] == b
  {
  }

  /** A string splits around its first "=" in one way only. */
  lemma SplitUnique(a: string, b: string, c: string, d: string)
    requires '=' !in a && '=' !in c
    requires a + "=" + b == c + "=" + d
    ensures a == c && b == d
  {
    SplitShape(a, b);
    SplitShape(c, d);
  }

  /** `key=value` with an "="-free key splits back into that key and value. */
  lemma SplitArgRoundTrip(key: string, value: string)
    requires '=' !in key
    ensures SplitArg(key + "=" + value) == Some((key, value))
  {
    var arg := key + "=" + value;
    assert arg[|key|] == '=';
    var r := SplitArg(arg);
    SplitUnique(r.value.0, r.value.1, key, value);
  }

  /** The key token `args[i]` sets, if it sets one. */
  function KeyAt(args: seq<string>, i: int): Option<string>
    requires 0 <= i < |args|
  {
    match SplitArg(args[i])
    case None => None
    case Some((k, _)) => Some(k)
  }

  /** `args[i]` is the last token that sets `k`. */
  predicate IsLastSetting(args: seq<string>, k: string, i: int) {
    0 <= i < |args| && KeyAt(args, i) == Some(k)
    && forall j :: i < j < |args| ==> KeyAt(args, j) != Some(k)
  }

  /** Some token is exactly `key=value`. */
  predicate Spells(args: seq<string>, key: string, value: string) {
    exists i :: 0 <= i < |args| && args[i] == key + "=" + value
  }

  /**
   * The `kwargs` that `run` builds from its extra arguments, token by token:
   * every entry is spelled out by some token `key=value`, and no key holds "=".
   */
  function ParseArgs(args: seq<string>): (r: map<string, string>)
    ensures forall k :: k in r ==> '=' !in k && Spells(args, k, r[k])
    decreases |args|
  {
    if |args| == 0 then map[]
    else
      var kwargs := ParseArgs(args[..|args| - 1]);
      match SplitArg(args[|args| - 1])
      case None => kwargs
      case Some((key, value)) => kwargs[key := value]
  }

  lemma KeyAtPrefix(args: seq<string>)
    requires |args| > 0
    ensures forall i :: 0 <= i < |args| - 1 ==> KeyAt(args, i) == KeyAt(args[..|args| - 1], i)
  {
  }

  /** Token `args[i]` sets the key `k`. */
  predicate SetsKey(args: seq<string>, k: string, i: int) {
    0 <= i < |args| && KeyAt(args, i) == Some(k)
  }

  /** The last token either sets `k` or leaves its presence as the earlier tokens left it. */
  lemma ParseArgsSnoc(args: seq<string>, k: string)
    requires |args| > 0
    ensures KeyAt(args, |args| - 1) == Some(k) ==> k in ParseArgs(args)
    ensures KeyAt(args, |args| - 1) != Some(k) ==>
      (k in ParseArgs(args) <==> k in ParseArgs(args[..|args| - 1]))
  {
  }

  /** A token keeps the key it sets when later tokens are added or dropped. */
  lemma SetsKeyPrefix(args: seq<string>, k: string, i: int)
    requires 0 <= i < |args| - 1
    ensures SetsKey(args, k, i) <==> SetsKey(args[..|args| - 1], k, i)
  {
    assert args[i] == args[..|args| - 1][i];
  }

  /** `kwargs` holds exactly the keys some token sets. */
  lemma {:induction false} ParseArgsKeys(args: seq<string>, k: string)
    ensures k in ParseArgs(args) <==> exists i :: SetsKey(args, k, i)
    decreases |args|
  {
    if |args| > 0 {
      var n := |args| - 1;
      var init := args[..n];
      ParseArgsKeys(init, k);
      ParseArgsSnoc(args, k);
      if KeyAt(args, n) == Some(k) {
        assert SetsKey(args, k, n);
      } else {
        if k in ParseArgs(init) {
          var i :| SetsKey(init, k, i);
          SetsKeyPrefix(args, k, i);
        }
        if exists i :: SetsKey(args, k, i) {
          var i :| SetsKey(args, k, i);
          SetsKeyPrefix(args, k, i);
        }
      }
    }
  }

  /** Each key of `kwargs` holds the value of the last token that sets it. */
  lemma {:induction false} ParseArgsLastWins(args: seq<string>, k: string)
    requires k in ParseArgs(args)
    ensures exists i :: IsLastSetting(args, k, i) && SplitArg(args[i]).value.1 == ParseArgs(args)[k]
    decreases |args|
  {
    var n := |args| - 1;
    var init := args[..n];
    KeyAtPrefix(args);
    if KeyAt(args, n) == Some(k) {
      assert IsLastSetting(args, k, n);
    } else {
      assert k in ParseArgs(init) && ParseArgs(init)[k] == ParseArgs(args)[k];
      ParseArgsLastWins(init, k);
      var i :| IsLastSetting(init, k, i) && SplitArg(init[i]).value.1 == ParseArgs(init)[k];
      assert IsLastSetting(args, k, i);
    }
  }

  /** No extra arguments, no keyword arguments. */
  lemma ParseNoArgs()
    ensures ParseArgs([]) == map[]
  {
  }

  /** Token lists that end alike, after prefixes that parse alike, parse alike. */
  lemma ParseArgsSameLast(x: seq<string>, y: seq<string>)
    requires |x| > 0 && |y| > 0 && x[|x| - 1] == y[|y| - 1]
    requires ParseArgs(x[..|x| - 1]) == ParseArgs(y[..|y| - 1])
    ensures ParseArgs(x) == ParseArgs(y)
  {
  }

  /** A last token without "=" contributes nothing. */
  lemma ParseArgsBareLast(args: seq<string>)
    requires |args| > 0 && '=' !in args[|args| - 1]
    ensures ParseArgs(args) == ParseArgs(args[..|args| - 1])
  {
    assert SplitArg(args[|args| - 1]).None?;
  }

  /** Appending the same token after two token lists that parse alike keeps them alike. */
  lemma ParseArgsSnocSame(x: seq<string>, y: seq<string>, last: string)
    requires ParseArgs(x) == ParseArgs(y)
    ensures ParseArgs(x + [last]) == ParseArgs(y + [last])
  {
    assert (x + [last])[..|x|] == x;
    assert (y + [last])[..|y|] == y;
    ParseArgsSameLast(x + [last], y + [last]);
  }

  /** A token without "=" contributes nothing, wherever it stands. */
  lemma {:induction false} BareTokenIgnored(a: seq<string>, t: string, b: seq<string>)
    requires '=' !in t
    ensures ParseArgs(a + [t] + b) == ParseArgs(a + b)
    decreases |b|
  {
    if |b| == 0 {
      assert a + [t] + b == a + [t];
      assert (a + [t])[..|a|] == a;
      assert a + b == a;
      ParseArgsBareLast(a + [t]);
    } else {
      var b' := b[..|b| - 1];
      BareTokenIgnored(a, t, b');
      ParseArgsSnocSame(a + [t] + b', a + b', b[|b| - 1]);
      assert a + [t] + b' + [b[|b| - 1]] == a + [t] + b;
      assert a + b' + [b[|b| - 1]] == a + b;
    }
  }

  /** What `run` prints: a result, or an error message. */
  datatype RunOutput = ResultShown(value: Value) | ErrorShown(message: string)

  function NotFound(toolName: string): string {
    "Tool '" + toolName + "' not found"
  }

  /**
   * `run tool_name args...`: every exception of the lookup and of `execute`
   * is caught and shown. A `KeyError`, whether from the lookup or from
   * inside `execute`, is shown as the tool not being found; any other error
   * shows its message.
   */
  function Run(r: ToolRegistry, toolName: string, args: seq<string>, server: Weather.Request -> Weather.Response): (out: RunOutput)
    requires Valid(r)
    ensures toolName !in Names(r) ==> out == ErrorShown(NotFound(toolName))
    ensures out.ResultShown? ==>
      toolName in Names(r) && Tools.Execute(GetTool(r, toolName).value, ParseArgs(args), server) == Success(out.value)
    ensures toolName in Names(r) && Tools.Execute(GetTool(r, toolName).value, ParseArgs(args), server).Success? ==>
      out.ResultShown?
    ensures toolName in Names(r) ==>
      var e := Tools.Execute(GetTool(r, toolName).value, ParseArgs(args), server);
      && (e.Failure? && e.error.KeyError? ==> out == ErrorShown(NotFound(toolName)))
      && (e.Failure? && e.error.Raised? ==> out == ErrorShown(e.error.message))
  {
    match GetTool(r, toolName)
    case Failure(_) => ErrorShown(NotFound(toolName))
    case Success(tool) =>
      match Tools.Execute(tool, ParseArgs(args), server)
      case Success(v) => ResultShown(v)
      case Failure(KeyError(_)) => ErrorShown(NotFound(toolName))
      case Failure(Raised(message)) => ErrorShown(message)
  }

  /** The single argument `message=hello` parses to one setting. */
  lemma ParseMessageHello()
    ensures ParseArgs(["message=hello"]) == map["message" := "hello"]
  {
    assert '=' !in "message";
    SplitArgRoundTrip("message", "hello");
    assert "message" + "=" + "hello" == "message=hello";
    var args := ["message=hello"];
    assert args[..0] == [];
  }

  /** The example tool echoes `hello` back with its prefix. */
  lemma EchoHello(server: Weather.Request -> Weather.Response)
    ensures Tools.Execute(Example.Instance(), map["message" := "hello"], server) == Success(Text("Echo: hello"))
  {
    assert Example.MessageOf(map["message" := "hello"]) == "hello";
    assert Example.EchoPrefix + "hello" == "Echo: hello";
  }

  /** `run example_tool message=hello` shows the echoed message. */
  lemma EchoScenario(r: ToolRegistry, server: Weather.Request -> Weather.Response)
    requires Valid(r) && GetTool(r, "example_tool") == Success(Example.Instance())
    ensures Run(r, "example_tool", ["message=hello"], server) == ResultShown(Text("Echo: hello"))
  {
    ParseMessageHello();
    EchoHello(server);
  }

  /**
   * `run weather` with a good key but no `city`: the `KeyError` raised
   * inside `execute` is shown as the tool not being found.
   */
  lemma MissingCityShownAsNotFound(r: ToolRegistry, key: string, server: Weather.Request -> Weather.Response)
    requires Valid(r) && |key| >= Weather.MinKeyLength
    requires GetTool(r, "weather") == Success(Weather.Instance(Some(key)))
    ensures Run(r, "weather", [], server) == ErrorShown("Tool 'weather' not found")
  {
    ParseNoArgs();
    assert Weather.ValidateApiKey(Some(key)) == Success(key);
    assert Tools.Execute(Weather.Instance(Some(key)), map[], server) == Failure(KeyError("city"));
  }

  /**
   * `run weather ...` without a key in the environment shows the
   * missing-key message, city or not, unless a `self=` token makes the call
   * itself fail first.
   */
  lemma MissingKeyShown(r: ToolRegistry, args: seq<string>, server: Weather.Request -> Weather.Response)
    requires Valid(r) && GetTool(r, "weather") == Success(Weather.Instance(None))
    ensures "self" !in ParseArgs(args) ==> Run(r, "weather", args, server) == ErrorShown(Weather.KeyMissingMessage)
    ensures "self" in ParseArgs(args) ==>
      Run(r, "weather", args, server) == ErrorShown("WeatherTool.execute() got multiple values for argument 'self'")
  {
    var w := Weather.Instance(None);
    if "self" in ParseArgs(args) {
    } else {
      assert Tools.Execute(w, ParseArgs(args), server) == Failure(Raised(Weather.KeyMissingMessage));
    }
  }

  /** The single argument `self=x` parses to a `self` keyword. */
  lemma ParseSelfX()
    ensures ParseArgs(["self=x"]) == map["self" := "x"]
  {
    assert '=' !in "self";
    SplitArgRoundTrip("self", "x");
    assert "self" + "=" + "x" == "self=x";
    var args := ["self=x"];
    assert args[..0] == [];
  }

  /**
   * `run example_tool self=x`: the keyword collides with `execute`'s own
   * `self`, and the resulting `TypeError` is shown instead of an echo.
   */
  lemma SelfArgumentShown(r: ToolRegistry, server: Weather.Request -> Weather.Response)
    requires Valid(r) && GetTool(r, "example_tool") == Success(Example.Instance())
    ensures Run(r, "example_tool", ["self=x"], server)
            == ErrorShown("ExampleTool.execute() got multiple values for argument 'self'")
  {
    ParseSelfX();
  }

  /** `list-tools`: one "name: description" line per registered tool, in registration order. */
  function ListTools(r: ToolRegistry): (lines: seq<string>)
    requires Valid(r)
    ensures |lines| == |Names(r)|
    ensures forall i :: 0 <= i < |lines| ==>
      lines[i] == Names(r)[i] + ": " + GetTool(r, Names(r)[i]).value.description
  {
    var tools := GetAvailableTools(r);
    seq(|tools|, i requires 0 <= i < |tools| => tools[i].name + ": " + tools[i].description)
  }

  /** `BaseTool` as it is seen from every module that imports it. */
  const BaseToolMember := MemberInfo("BaseTool", true, true, true, None)

  /** The members of `weather.py` that discovery looks at, in name order. */
  function WeatherMembers(apiKey: Option<string>): seq<MemberInfo> {
    [ BaseToolMember,
      MemberInfo("WeatherAPIError", true, false, false, None),
      MemberInfo("WeatherTool", true, true, false, Some(Weather.Instance(apiKey))),
      MemberInfo("weather_cli", false, false, false, None)]
  }

  /** The members of `example_tool.py` that discovery looks at, in name order. */
  function ExampleMembers(): seq<MemberInfo> {
    [ BaseToolMember,
      MemberInfo("ExampleTool", true, true, false, Some(Example.Instance()))]
  }

  /** The members of `base.py`, `cli.py` and `registry.py` that discovery looks at, in name order. */
  function BaseMembers(): seq<MemberInfo> {
    [ MemberInfo("ABC", true, false, false, None),
      BaseToolMember,
      MemberInfo("abstractmethod", false, false, false, None)]
  }

  function CliMembers(): seq<MemberInfo> {
    [ MemberInfo("Console", true, false, false, None),
      MemberInfo("ToolRegistry", true, false, false, None),
      MemberInfo("main", false, false, false, None)]
  }

  function RegistryMembers(): seq<MemberInfo> {
    [ BaseToolMember,
      MemberInfo("ToolRegistry", true, false, false, None)]
  }

  /**
   * The modules of the `cursor_tools` package in the order they are
   * scanned. `apiKey` is what the environment holds when `WeatherTool()` runs.
   */
  function CursorToolsPackage(apiKey: Option<string>): seq<ModuleInfo> {
    [ ModuleInfo("base", false, Some(BaseMembers())),
      ModuleInfo("cli", false, Some(CliMembers())),
      ModuleInfo("example_tool", false, Some(ExampleMembers())),
      ModuleInfo("registry", false, Some(RegistryMembers())),
      ModuleInfo("weather", false, Some(WeatherMembers(apiKey)))
    ]
  }

  /** Nothing is instantiated from `base.py`, `cli.py` or `registry.py`. */
  lemma QuietModulesPlan()
    ensures MemberPlan(BaseMembers()) == Plan([], None)
    ensures MemberPlan(CliMembers()) == Plan([], None)
    ensures MemberPlan(RegistryMembers()) == Plan([], None)
  {
    var b := BaseMembers();
    assert MemberPlan(b[2..]) == Plan([], None);
    assert MemberPlan(b[1..]) == Plan([], None);
    var c := CliMembers();
    assert MemberPlan(c[2..]) == Plan([], None);
    assert MemberPlan(c[1..]) == Plan([], None);
    var g := RegistryMembers();
    assert MemberPlan(g[1..]) == Plan([], None);
  }

  /** Only `WeatherTool` is instantiated from `weather.py`. */
  lemma WeatherModulePlan(apiKey: Option<string>)
    ensures MemberPlan(WeatherMembers(apiKey)) == Plan([Weather.Instance(apiKey)], None)
  {
    var ms := WeatherMembers(apiKey);
    var w := Weather.Instance(apiKey);
    assert MemberPlan(ms[3..]) == Plan([], None);
    assert MemberPlan(ms[2..]) == Plan([w], None);
    assert MemberPlan(ms[1..]) == Plan([w], None);
  }

  /** Only `ExampleTool` is instantiated from `example_tool.py`. */
  lemma ExampleModulePlan()
    ensures MemberPlan(ExampleMembers()) == Plan([Example.Instance()], None)
  {
    var ms := ExampleMembers();
    assert MemberPlan(ms[1..]) == Plan([Example.Instance()], None);
  }

  /** Over the whole package, the example tool and then the weather tool are instantiated. */
  lemma PackagePlan(apiKey: Option<string>)
    ensures ModulePlan(CursorToolsPackage(apiKey)) == Plan([Example.Instance(), Weather.Instance(apiKey)], None)
  {
    var mods := CursorToolsPackage(apiKey);
    var e := Example.Instance();
    var w := Weather.Instance(apiKey);
    WeatherModulePlan(apiKey);
    ExampleModulePlan();
    QuietModulesPlan();
    assert mods[4..][1..] == [];
    assert ModulePlan(mods[4..]) == Plan([w], None);
    assert ModulePlan(mods[3..]) == Plan([w], None);
    assert mods[2..][1..] == mods[3..];
    assert ModulePlan(mods[2..]) == Plan([e, w], None);
    assert ModulePlan(mods[1..]) == Plan([e, w], None);
  }

  /** Registering the two tools into an empty registry. */
  lemma RegisterBoth(e: Tool, w: Tool)
    requires e.name == "example_tool" && w.name == "weather"
    ensures var r := RegisterAll(New(), [e, w]);
      && Names(r) == ["example_tool", "weather"]
      && GetTool(r, "example_tool") == Success(e)
      && GetTool(r, "weather") == Success(w)
  {
    var r1 := RegisterTool(New(), e);
    assert RegisterAll(New(), [e, w]) == RegisterAll(r1, [w]);
    assert RegisterAll(r1, [w]) == RegisterTool(r1, w);
  }

  /**
   * Discovering the package registers exactly the example tool and the
   * weather tool, in that order; `BaseTool`, the exception class and the
   * registry class are never instantiated.
   */
  lemma PackageDiscovery(apiKey: Option<string>)
    ensures var d := DiscoverModules(New(), CursorToolsPackage(apiKey));
      && d.failure.None?
      && Names(d.registry) == ["example_tool", "weather"]
      && GetTool(d.registry, "example_tool") == Success(Example.Instance())
      && GetTool(d.registry, "weather") == Success(Weather.Instance(apiKey))
  {
    PackagePlan(apiKey);
    DiscoverIsFold(New(), CursorToolsPackage(apiKey));
    RegisterBoth(Example.Instance(), Weather.Instance(apiKey));
  }
}

=== FILE: dicts.dfy ===
/**
 * Python's `dict` with string keys (the only keys the system uses): a
 * map that remembers the order in which its keys were first inserted.
 * Assigning to a present key replaces the value and keeps the key where
 * it was.
 */
module Dicts {
  import opened Wrappers

  /** `keys` is the iteration order, `entries` the mapping itself. */
  datatype Dict<V> = Dict(keys: seq<string>, entries: map<string, V>) {

    /** Keys are listed once each, and exactly the mapped keys are listed. */
    predicate Valid() {
      && (forall i, j :: 0 <= i < j < |keys| ==> keys[i] != keys[j])
      && (forall k :: k in entries ==> k in keys)
      && (forall i :: 0 <= i < |keys| ==> keys[i] in entries)
    }
  }

  /** `{}` */
  function Empty<V>(): (d: Dict<V>)
    ensures d.Valid()
    ensures forall k :: Get(d, k) == None
  {
    Dict([], map[])
  }

  /** `d.get(k)`: the value under `k`, or None when `k` is absent. */
  function Get<V>(d: Dict<V>, k: string): (r: Option<V>)
    requires d.Valid()
    ensures r.Some? <==> k in d.keys
    ensures r.Some? ==> r.value == d.entries[k]
  {
    if k in d.entries then Some(d.entries[k]) else None
  }

  /** `d[k] = v` */
  function Put<V>(d: Dict<V>, k: string, v: V): (d': Dict<V>)
    requires d.Valid()
    ensures d'.Valid()
    ensures Get(d', k) == Some(v)
    ensures forall k' :: k' != k ==> Get(d', k') == Get(d, k')
    ensures k in d.keys ==> d'.keys == d.keys
    ensures k !in d.keys ==> d'.keys == d.keys + [k]
  {
    if k in d.entries then Dict(d.keys, d.entries[k := v])
    else Dict(d.keys + [k], d.entries[k := v])
  }

  /** The values stored under `keys`, in that order. */
  function ValuesOf<V>(keys: seq<string>, entries: map<string, V>): (vs: seq<V>)
    requires forall i :: 0 <= i < |keys| ==> keys[i] in entries
    ensures |vs| == |keys|
    ensures forall i :: 0 <= i < |keys| ==> vs[i] == entries[keys[i]]
  {
    if |keys| == 0 then [] else [entries[keys[0]]] + ValuesOf(keys[1..], entries)
  }

  /** `list(d.values())`: one value per key, in key order. */
  function Values<V>(d: Dict<V>): (vs: seq<V>)
    requires d.Valid()
    ensures |vs| == |d.keys|
    ensures forall i :: 0 <= i < |vs| ==> Get(d, d.keys[i]) == Some(vs[i])
  {
    ValuesOf(d.keys, d.entries)
  }

  /** Two valid dicts with the same key order and the same lookups are equal. */
  lemma Extensionality<V>(d: Dict<V>, e: Dict<V>)
    requires d.Valid() && e.Valid()
    requires d.keys == e.keys
    requires forall k :: Get(d, k) == Get(e, k)
    ensures d == e
  {
    forall k | k in d.entries
      ensures k in e.entries && d.entries[k] == e.entries[k]
    {
      assert Get(d, k) == Get(e, k);
    }
    assert d.entries == e.entries;
  }
}

=== FILE: example_tool.dfy ===
/** `ExampleTool`: echoes its `message` argument. */
module Example {
  import opened Wrappers
  import opened Strings
  import opened Dicts
  import opened Base

  const Name := "example_tool"
  const Description := "An example tool that echoes input"
  const EchoPrefix := "Echo: "

  /** `ExampleTool()` */
  function Instance(): (t: Tool)
    ensures t.name == Name && t.description == Description && t.kind == Echo
  {
    Init(Name, Description, Echo)
  }

  /** `ExampleTool.parameters`: exactly one parameter, `message`, required. */
  function Parameters(): (decl: ParamDecl)
    ensures decl.Valid()
    ensures decl.keys == ["message"]
    ensures Get(decl, "message").Some? && IsRequired(Get(decl, "message").value)
  {
    Dict(["message"], map["message" := ParamSpec("string", "Message to echo", Some(true))])
  }

  /** The `message` argument, or "" when it is absent: `kwargs.get("message", "")`. */
  function MessageOf(kwargs: map<string, string>): string {
    if "message" in kwargs then kwargs["message"] else ""
  }

  /** `ExampleTool.execute`: "Echo: " followed by the message; the prefix strips off again. */
  function Execute(kwargs: map<string, string>): (r: string)
    ensures |r| >= |EchoPrefix| && r[..|EchoPrefix|] == EchoPrefix
    ensures r[|EchoPrefix|..] == MessageOf(kwargs)
  {
    EchoPrefix + MessageOf(kwargs)
  }

  /** With no `message`, the reply is exactly the prefix. */
  lemma ExecuteWithoutMessage(kwargs: map<string, string>)
    requires "message" !in kwargs
    ensures Execute(kwargs) == "Echo: "
  {
  }

  /** Arguments other than `message` are ignored. */
  lemma ExecuteIgnoresOtherArgs(a: map<string, string>, b: map<string, string>)
    requires ("message" in a <==> "message" in b)
    requires "message" in a ==> a["message"] == b["message"]
    ensures Execute(a) == Execute(b)
  {
  }

  /** Validating no arguments reports `message`; supplying it passes. */
  lemma ValidateReportsMessage(kwargs: map<string, string>)
    ensures ValidateParams<string>(Parameters(), map[])
            == Some("Missing required parameters: message")
    ensures "message" in kwargs ==> ValidateParams(Parameters(), kwargs) == None
  {
    var decl := Parameters();
    assert MissingRequired<string>(decl, map[]) == {"message"};
    assert MissingAmong<string>(decl.keys, decl, map[]) == ["message"];
    assert Join(["message"], ", ") == "message";
    assert ValidateParams<string>(decl, map[]) == Some(MissingPrefix + "message");
    assert MissingPrefix + "message" == "Missing required parameters: message";
  }
}

=== FILE: registry.dfy ===
/**
 * `ToolRegistry`: tool instances by name in registration order, and
 * discovery of the tool classes a package defines.
 */
module Registry {
  import opened Wrappers
  import opened Dicts
  import opened Base

  datatype ToolRegistry = ToolRegistry(tools: Dict<Tool>)

  /** Every tool is registered under its own name. */
  predicate Valid(r: ToolRegistry) {
    && r.tools.Valid()
    && forall n :: n in r.tools.entries ==> r.tools.entries[n].name == n
  }

  /** The registered names, in first-registration order. */
  function Names(r: ToolRegistry): seq<string> {
    r.tools.keys
  }

  /** `ToolRegistry()`: nothing registered, nothing found. */
  function New(): (r: ToolRegistry)
    ensures Valid(r)
    ensures Names(r) == []
    ensures forall n :: GetTool(r, n) == Failure(KeyError(n))
  {
    ToolRegistry(Empty())
  }

  /** `get_tool(name)`: the tool registered under `name`, or `KeyError(name)`. */
  function GetTool(r: ToolRegistry, name: string): (res: Result<Tool, ToolError>)
    requires Valid(r)
    ensures res.Success? <==> name in Names(r)
    ensures res.Success? ==> res.value.name == name
    ensures res.Failure? ==> res.error == KeyError(name)
  {
    match Get(r.tools, name)
    case Some(t) => Success(t)
    case None => Failure(KeyError(name))
  }

  /**
   * `register_tool(t)`: `t` is found under its name and every other name
   * is found as before. A new name goes last; a known one keeps its place.
   */
  function RegisterTool(r: ToolRegistry, t: Tool): (r': ToolRegistry)
    requires Valid(r)
    ensures Valid(r')
    ensures GetTool(r', t.name) == Success(t)
    ensures forall n :: n != t.name ==> GetTool(r', n) == GetTool(r, n)
    ensures Names(r') == if t.name in Names(r) then Names(r) else Names(r) + [t.name]
  {
    ToolRegistry(Put(r.tools, t.name, t))
  }

  /**
   * `get_available_tools()`: one tool per registered name, no name twice,
   * in registration order, each the one `get_tool` finds.
   */
  function GetAvailableTools(r: ToolRegistry): (ts: seq<Tool>)
    requires Valid(r)
    ensures |ts| == |Names(r)|
    ensures forall i :: 0 <= i < |ts| ==> ts[i].name == Names(r)[i] && GetTool(r, ts[i].name) == Success(ts[i])
    ensures forall i, j :: 0 <= i < j < |ts| ==> ts[i].name != ts[j].name
  {
    Values(r.tools)
  }

  /** Register each tool of `ts` in turn. */
  function RegisterAll(r: ToolRegistry, ts: seq<Tool>): (r': ToolRegistry)
    requires Valid(r)
    ensures Valid(r')
    decreases |ts|
  {
    if |ts| == 0 then r else RegisterAll(RegisterTool(r, ts[0]), ts[1..])
  }

  function NamesOf(ts: seq<Tool>): (ns: seq<string>)
    ensures |ns| == |ts| && forall i :: 0 <= i < |ts| ==> ns[i] == ts[i].name
  {
    seq(|ts|, i requires 0 <= i < |ts| => ts[i].name)
  }

  /** `ts[i]` is the last tool of `ts` named `n`. */
  predicate IsLastNamed(ts: seq<Tool>, n: string, i: int) {
    0 <= i < |ts| && ts[i].name == n && forall j :: i < j < |ts| ==> ts[j].name != n
  }

  /** The last tool of `ts` named `n`, if any. */
  function LastNamed(ts: seq<Tool>, n: string): (o: Option<Tool>)
    ensures o.None? <==> n !in NamesOf(ts)
    ensures o.Some? ==> exists i :: IsLastNamed(ts, n, i) && ts[i] == o.value
  {
    if |ts| == 0 then None
    else
      var rest := LastNamed(ts[1..], n);
      assert NamesOf(ts) == [ts[0].name] + NamesOf(ts[1..]);
      if rest.Some? then
        var i :| IsLastNamed(ts[1..], n, i) && ts[1..][i] == rest.value;
        assert IsLastNamed(ts, n, i + 1);
        rest
      else if ts[0].name == n then
        assert IsLastNamed(ts, n, 0);
        Some(ts[0])
      else None
  }

  /** After registering `ts`, each name maps to the last tool of `ts` with that name. */
  lemma {:induction false} RegisterAllLookup(r: ToolRegistry, ts: seq<Tool>, n: string)
    requires Valid(r)
    ensures GetTool(RegisterAll(r, ts), n) ==
      match LastNamed(ts, n)
      case Some(t) => Success(t)
      case None => GetTool(r, n)
    decreases |ts|
  {
    if |ts| > 0 {
      RegisterAllLookup(RegisterTool(r, ts[0]), ts[1..], n);
    }
  }

  /**
   * `s` without repeats, each element where it first occurs: the order in
   * which a Python dict lists keys assigned in the order of `s`.
   */
  function Dedup(s: seq<string>): (d: seq<string>)
    ensures forall x :: x in d <==> x in s
    ensures forall i, j :: 0 <= i < j < |d| ==> d[i] != d[j]
  {
    if |s| == 0 then []
    else
      var d := Dedup(s[..|s| - 1]);
      assert forall x :: x in s <==> x in s[..|s| - 1] || x == s[|s| - 1];
      if s[|s| - 1] in d then d else d + [s[|s| - 1]]
  }

  lemma {:induction false} DedupOfDistinct(s: seq<string>)
    requires forall i, j :: 0 <= i < j < |s| ==> s[i] != s[j]
    ensures Dedup(s) == s
  {
    if |s| > 0 {
      DedupOfDistinct(s[..|s| - 1]);
      assert s[|s| - 1] !in s[..|s| - 1];
    }
  }

  lemma {:induction false} DedupAppend(a: seq<string>, b: seq<string>)
    ensures Dedup(Dedup(a) + b) == Dedup(a + b)
  {
    if |b| == 0 {
      assert Dedup(a) + b == Dedup(a);
      assert a + b == a;
      DedupOfDistinct(Dedup(a));
    } else {
      var b' := b[..|b| - 1];
      DedupAppend(a, b');
      assert (Dedup(a) + b)[..|Dedup(a) + b| - 1] == Dedup(a) + b';
      assert (a + b)[..|a + b| - 1] == a + b';
    }
  }

  lemma {:induction false} DedupAbsorb(s: seq<string>, t: seq<string>)
    requires forall i :: 0 <= i < |t| ==> t[i] in s
    ensures Dedup(s + t) == Dedup(s)
  {
    if |t| == 0 {
      assert s + t == s;
    } else {
      DedupAbsorb(s, t[..|t| - 1]);
      assert (s + t)[..|s + t| - 1] == s + t[..|t| - 1];
    }
  }

  lemma NamesAfterRegister(r: ToolRegistry, t: Tool)
    requires Valid(r)
    ensures Names(RegisterTool(r, t)) == Dedup(Names(r) + [t.name])
  {
    DedupOfDistinct(Names(r));
    assert (Names(r) + [t.name])[..|Names(r)|] == Names(r);
  }

  lemma NamesOfCons(ns: seq<string>, ts: seq<Tool>)
    requires |ts| > 0
    ensures ns + [ts[0].name] + NamesOf(ts[1..]) == ns + NamesOf(ts)
  {
    assert NamesOf(ts) == [ts[0].name] + NamesOf(ts[1..]);
  }

  /** Registering `ts` lists the old names, then each new name where it first occurs in `ts`. */
  lemma {:induction false} RegisterAllNames(r: ToolRegistry, ts: seq<Tool>)
    requires Valid(r)
    ensures Names(RegisterAll(r, ts)) == Dedup(Names(r) + NamesOf(ts))
    decreases |ts|
  {
    if |ts| == 0 {
      assert Names(r) + NamesOf(ts) == Names(r);
      DedupOfDistinct(Names(r));
    } else {
      var r1 := RegisterTool(r, ts[0]);
      NamesAfterRegister(r, ts[0]);
      RegisterAllNames(r1, ts[1..]);
      DedupAppend(Names(r) + [ts[0].name], NamesOf(ts[1..]));
      NamesOfCons(Names(r), ts);
    }
  }

  lemma NamesTwice(r: ToolRegistry, ts: seq<Tool>)
    requires Valid(r)
    ensures Names(RegisterAll(RegisterAll(r, ts), ts)) == Names(RegisterAll(r, ts))
  {
    var once := RegisterAll(r, ts);
    RegisterAllNames(r, ts);
    RegisterAllNames(once, ts);
    DedupAppend(Names(r) + NamesOf(ts), NamesOf(ts));
    DedupAbsorb(Names(r) + NamesOf(ts), NamesOf(ts));
  }

  lemma LookupTwice(r: ToolRegistry, ts: seq<Tool>, n: string)
    requires Valid(r)
    ensures Get(RegisterAll(RegisterAll(r, ts), ts).tools, n) == Get(RegisterAll(r, ts).tools, n)
  {
    var once := RegisterAll(r, ts);
    RegisterAllLookup(r, ts, n);
    RegisterAllLookup(once, ts, n);
    assert GetTool(RegisterAll(once, ts), n) == GetTool(once, n);
  }

  /** Registering the same tools a second time changes nothing. */
  lemma RegisterAllTwice(r: ToolRegistry, ts: seq<Tool>)
    requires Valid(r)
    ensures RegisterAll(RegisterAll(r, ts), ts) == RegisterAll(r, ts)
  {
    var once := RegisterAll(r, ts);
    var twice := RegisterAll(once, ts);
    NamesTwice(r, ts);
    forall n
      ensures Get(twice.tools, n) == Get(once.tools, n)
    {
      LookupTwice(r, ts, n);
    }
    Extensionality(twice.tools, once.tools);
  }

  /**
   * One member of a loaded module, as `inspect.getmembers` reports it:
   * whether it is a class, a subclass of `BaseTool`, `BaseTool` itself,
   * and the instance its zero-argument constructor gives (None when the
   * constructor raises).
   */
  datatype MemberInfo = MemberInfo(
    memberName: string, isClass: bool, subclassOfBase: bool, isBase: bool, instance: Option<Tool>)

  /** A module of the scanned package: a sub-package, or its members (None when importing it raises). */
  datatype ModuleInfo = ModuleInfo(moduleName: string, isPackage: bool, members: Option<seq<MemberInfo>>)

  /** A class discovery instantiates: a proper subclass of `BaseTool`. */
  predicate Accepted(m: MemberInfo) {
    m.isClass && m.subclassOfBase && !m.isBase
  }

  datatype DiscoveryError = ImportFailed(moduleName: string) | ConstructionFailed(memberName: string)

  /** The registry after discovery, and the exception that stopped it, if one did. */
  datatype Discovery = Discovery(registry: ToolRegistry, failure: Option<DiscoveryError>)

  /** `r'` still has every name of `r`, in the same order, with any new names after them. */
  predicate Extends(r: ToolRegistry, r': ToolRegistry) {
    |Names(r)| <= |Names(r')| && Names(r')[..|Names(r)|] == Names(r)
  }

  lemma ExtendsTrans(a: ToolRegistry, b: ToolRegistry, c: ToolRegistry)
    requires Extends(a, b) && Extends(b, c)
    ensures Extends(a, c)
  {
    assert Names(c)[..|Names(a)|] == Names(c)[..|Names(b)|][..|Names(a)|];
  }

  lemma RegisterExtends(r: ToolRegistry, t: Tool)
    requires Valid(r)
    ensures Extends(r, RegisterTool(r, t))
  {
    assert Names(r)[..|Names(r)|] == Names(r);
  }

  /**
   * The inner loop of `discover_tools` over one module's members: it only
   * adds names, stops only at an accepted class whose constructor raises,
   * and leaves the registry alone when no member is a tool class.
   */
  function DiscoverMembers(r: ToolRegistry, ms: seq<MemberInfo>): (d: Discovery)
    requires Valid(r)
    ensures Valid(d.registry)
    ensures Extends(r, d.registry)
    ensures d.failure.Some? ==>
      exists m :: m in ms && Accepted(m) && m.instance.None? && d.failure == Some(ConstructionFailed(m.memberName))
    ensures (forall m :: m in ms ==> !Accepted(m)) ==> d == Discovery(r, None)
    decreases |ms|
  {
    if |ms| == 0 then Discovery(r, None)
    else if !Accepted(ms[0]) then DiscoverMembers(r, ms[1..])
    else
      match ms[0].instance
      case None => Discovery(r, Some(ConstructionFailed(ms[0].memberName)))
      case Some(t) =>
        var r' := RegisterTool(r, t);
        var d := DiscoverMembers(r', ms[1..]);
        RegisterExtends(r, t);
        ExtendsTrans(r, r', d.registry);
        d
  }

  /**
   * `discover_tools`: sub-packages are skipped; the first module that
   * fails to import or class that fails to construct stops the pass,
   * keeping what was registered before it.
   */
  function DiscoverModules(r: ToolRegistry, mods: seq<ModuleInfo>): (d: Discovery)
    requires Valid(r)
    ensures Valid(d.registry)
    ensures Extends(r, d.registry)
    ensures d.failure.Some? && d.failure.value.ImportFailed? ==>
      exists m :: m in mods && !m.isPackage && m.members.None? && m.moduleName == d.failure.value.moduleName
    ensures (forall m :: m in mods ==> m.isPackage) ==> d == Discovery(r, None)
    decreases |mods|
  {
    if |mods| == 0 then Discovery(r, None)
    else if mods[0].isPackage then DiscoverModules(r, mods[1..])
    else
      match mods[0].members
      case None => Discovery(r, Some(ImportFailed(mods[0].moduleName)))
      case Some(ms) =>
        var d := DiscoverMembers(r, ms);
        if d.failure.Some? then d
        else
          var d' := DiscoverModules(d.registry, mods[1..]);
          ExtendsTrans(r, d.registry, d'.registry);
          d'
  }

  /** The tools a discovery pass registers, in order, and how it ends; independent of the registry. */
  datatype Plan = Plan(tools: seq<Tool>, failure: Option<DiscoveryError>)

  /** What one module's members contribute: the instances of the accepted ones, until one fails. */
  function MemberPlan(ms: seq<MemberInfo>): Plan
    decreases |ms|
  {
    if |ms| == 0 then Plan([], None)
    else if !Accepted(ms[0]) then MemberPlan(ms[1..])
    else
      match ms[0].instance
      case None => Plan([], Some(ConstructionFailed(ms[0].memberName)))
      case Some(t) =>
        var rest := MemberPlan(ms[1..]);
        Plan([t] + rest.tools, rest.failure)
  }

  /**
   * Only accepted members are ever instantiated, the pass fails exactly
   * when one of them cannot be, and otherwise every one is registered.
   */
  lemma {:induction false} MemberPlanAccepted(ms: seq<MemberInfo>)
    ensures var p := MemberPlan(ms);
      forall i :: 0 <= i < |p.tools| ==>
        exists j :: 0 <= j < |ms| && Accepted(ms[j]) && ms[j].instance == Some(p.tools[i])
    ensures MemberPlan(ms).failure.None? <==>
      forall j :: 0 <= j < |ms| && Accepted(ms[j]) ==> ms[j].instance.Some?
    ensures MemberPlan(ms).failure.None? ==>
      forall j :: 0 <= j < |ms| && Accepted(ms[j]) ==> ms[j].instance.value in MemberPlan(ms).tools
    decreases |ms|
  {
    if |ms| > 0 {
      MemberPlanAccepted(ms[1..]);
      var rest := MemberPlan(ms[1..]);
      var p := MemberPlan(ms);
      forall i | 0 <= i < |rest.tools|
        ensures exists j :: 0 <= j < |ms| && Accepted(ms[j]) && ms[j].instance == Some(rest.tools[i])
      {
        var j :| 0 <= j < |ms[1..]| && Accepted(ms[1..][j]) && ms[1..][j].instance == Some(rest.tools[i]);
        assert ms[j + 1] == ms[1..][j];
      }
      forall j | 1 <= j < |ms|
        ensures ms[j] == ms[1..][j - 1]
      {
      }
      if Accepted(ms[0]) && ms[0].instance.Some? {
        forall i | 0 <= i < |p.tools|
          ensures exists j :: 0 <= j < |ms| && Accepted(ms[j]) && ms[j].instance == Some(p.tools[i])
        {
          if i == 0 {
            assert Accepted(ms[0]) && ms[0].instance == Some(p.tools[0]);
          } else {
            assert p.tools[i] == rest.tools[i - 1];
          }
        }
      }
    }
  }

  /** Discovering one module's members is registering its plan. */
  lemma {:induction false} DiscoverMembersIsFold(r: ToolRegistry, ms: seq<MemberInfo>)
    requires Valid(r)
    ensures DiscoverMembers(r, ms) == Discovery(RegisterAll(r, MemberPlan(ms).tools), MemberPlan(ms).failure)
    decreases |ms|
  {
    if |ms| > 0 {
      if !Accepted(ms[0]) {
        DiscoverMembersIsFold(r, ms[1..]);
      } else if ms[0].instance.Some? {
        var t := ms[0].instance.value;
        DiscoverMembersIsFold(RegisterTool(r, t), ms[1..]);
        assert ([t] + MemberPlan(ms[1..]).tools)[1..] == MemberPlan(ms[1..]).tools;
      }
    }
  }

  lemma RegisterAllStep(r: ToolRegistry, a: seq<Tool>, b: seq<Tool>)
    requires Valid(r) && |a| > 0
    ensures RegisterAll(r, a + b) == RegisterAll(RegisterTool(r, a[0]), a[1..] + b)
    ensures RegisterAll(r, a) == RegisterAll(RegisterTool(r, a[0]), a[1..])
  {
    assert (a + b)[0] == a[0];
    assert (a + b)[1..] == a[1..] + b;
  }

  /** Registering `a` then `b` is registering `a + b`. */
  lemma {:induction false} RegisterAllAppend(r: ToolRegistry, a: seq<Tool>, b: seq<Tool>)
    requires Valid(r)
    ensures RegisterAll(RegisterAll(r, a), b) == RegisterAll(r, a + b)
    decreases |a|
  {
    if |a| > 0 {
      RegisterAllAppend(RegisterTool(r, a[0]), a[1..], b);
      RegisterAllStep(r, a, b);
    } else {
      assert a + b == b;
    }
  }

  /** What a whole package contributes, module by module. */
  function ModulePlan(mods: seq<ModuleInfo>): Plan
    decreases |mods|
  {
    if |mods| == 0 then Plan([], None)
    else if mods[0].isPackage then ModulePlan(mods[1..])
    else
      match mods[0].members
      case None => Plan([], Some(ImportFailed(mods[0].moduleName)))
      case Some(ms) =>
        var p := MemberPlan(ms);
        if p.failure.Some? then p
        else
          var rest := ModulePlan(mods[1..]);
          Plan(p.tools + rest.tools, rest.failure)
  }

  /** Discovery is a fold of `register_tool` over a list that depends on the package alone. */
  lemma {:induction false} DiscoverIsFold(r: ToolRegistry, mods: seq<ModuleInfo>)
    requires Valid(r)
    ensures DiscoverModules(r, mods) == Discovery(RegisterAll(r, ModulePlan(mods).tools), ModulePlan(mods).failure)
    decreases |mods|
  {
    if |mods| > 0 && !mods[0].isPackage && mods[0].members.Some? {
      var ms := mods[0].members.value;
      DiscoverMembersIsFold(r, ms);
      var d := DiscoverMembers(r, ms);
      if d.failure.None? {
        DiscoverIsFold(d.registry, mods[1..]);
        RegisterAllAppend(r, MemberPlan(ms).tools, ModulePlan(mods[1..]).tools);
      }
    } else if |mods| > 0 && mods[0].isPackage {
      DiscoverIsFold(r, mods[1..]);
    }
  }

  /**
   * Running discovery again over the same package yields the same
   * registry (same names, same order, same tools) and the same ending.
   */
  lemma DiscoverTwice(r: ToolRegistry, mods: seq<ModuleInfo>)
    requires Valid(r)
    ensures DiscoverModules(DiscoverModules(r, mods).registry, mods) == DiscoverModules(r, mods)
  {
    var once := DiscoverModules(r, mods);
    DiscoverIsFold(r, mods);
    DiscoverIsFold(once.registry, mods);
    RegisterAllTwice(r, ModulePlan(mods).tools);
  }

  /**
   * Members that are not proper tool classes play no part, wherever they
   * stand in the member list: discovery sees only the accepted ones.
   */
  lemma {:induction false} HelpersIgnored(r: ToolRegistry, a: seq<MemberInfo>, helper: MemberInfo, b: seq<MemberInfo>)
    requires Valid(r) && !Accepted(helper)
    ensures DiscoverMembers(r, a + [helper] + b) == DiscoverMembers(r, a + b)
    decreases |a|
  {
    var x := a + [helper] + b;
    var y := a + b;
    if |a| == 0 {
      assert x == [helper] + b && x[1..] == b;
      assert y == b;
    } else {
      assert x[0] == a[0] && y[0] == a[0];
      assert x[1..] == a[1..] + [helper] + b;
      assert y[1..] == a[1..] + b;
      if !Accepted(a[0]) {
        HelpersIgnored(r, a[1..], helper, b);
      } else if a[0].instance.Some? {
        HelpersIgnored(RegisterTool(r, a[0].instance.value), a[1..], helper, b);
      }
    }
  }
}

=== FILE: strings.dfy ===
/** String helpers with Python `str` semantics: `join`, `find`, `replace`, `*`, `str(int)`. */
module Strings {
  import opened Wrappers

  /** `sub` occurs somewhere in `s` (Python's `sub in s`). */
  predicate Contains(s: string, sub: string) {
    exists i | 0 <= i <= |s| - |sub| :: OccursAt(s, sub, i)
  }

  /** `sub` occurs in `s` starting at index `i`. */
  predicate OccursAt(s: string, sub: string, i: int) {
    0 <= i <= |s| - |sub| && s[i..i + |sub|] == sub
  }

  lemma ContainsAt(s: string, sub: string, i: int)
    requires OccursAt(s, sub, i)
    ensures Contains(s, sub)
  {
  }

  /** An occurrence survives when text is added on either side. */
  lemma ContainsExtended(p: string, t: string, q: string, sub: string)
    requires Contains(t, sub)
    ensures Contains(p + t + q, sub)
  {
    var i :| 0 <= i <= |t| - |sub| && OccursAt(t, sub, i);
    var s := p + t + q;
    assert s[|p| + i..|p| + i + |sub|] == t[i..i + |sub|];
    ContainsAt(s, sub, |p| + i);
  }

  /** Python's `sep.join(parts)`. */
  function Join(parts: seq<string>, sep: string): string
  {
    if |parts| == 0 then ""
    else if |parts| == 1 then parts[0]
    else parts[0] + sep + Join(parts[1..], sep)
  }

  /** Every joined part can be found in the joined string. */
  lemma {:induction false} JoinContainsEach(parts: seq<string>, sep: string, k: int)
    requires 0 <= k < |parts|
    ensures Contains(Join(parts, sep), parts[k])
  {
    var j := Join(parts, sep);
    if |parts| == 1 {
      assert j[0..|parts[0]|] == parts[0];
      ContainsAt(j, parts[0], 0);
    } else if k == 0 {
      assert j[0..|parts[0]|] == parts[0];
      ContainsAt(j, parts[0], 0);
    } else {
      JoinContainsEach(parts[1..], sep, k - 1);
      ContainsExtended(parts[0] + sep, Join(parts[1..], sep), "", parts[k]);
      assert parts[0] + sep + Join(parts[1..], sep) + "" == j;
    }
  }

  /** Position of the first `c` in `s`, or None: Python's `s.find(c)` with -1 as None. */
  function FirstIndexOf(s: string, c: char): (r: Option<nat>)
    ensures r.None? <==> c !in s
    ensures r.Some? ==> r.value < |s| && s[r.value] == c && c !in s[..r.value]
  {
    if |s| == 0 then None
    else if s[0] == c then Some(0)
    else
      match FirstIndexOf(s[1..], c)
      case None => None
      case Some(i) =>
        assert s[..i + 1] == [s[0]] + s[1..][..i];
        Some(i + 1)
  }

  /** Python's `c * n` for a one-character string `c`. */
  function Repeat(c: char, n: nat): (r: string)
    ensures |r| == n
    ensures forall i :: 0 <= i < n ==> r[i] == c
  {
    if n == 0 then [] else [c] + Repeat(c, n - 1)
  }

  /**
   * Python's `s.replace(pat, rep)`: every non-overlapping occurrence of
   * `pat`, scanning left to right, is replaced by `rep`; an empty `pat`
   * inserts `rep` before every character and at the end.
   */
  function ReplaceAll(s: string, pat: string, rep: string): (r: string)
    ensures pat == rep ==> r == s
    decreases |s|
  {
    if |pat| == 0 then
      if |s| == 0 then rep else rep + [s[0]] + ReplaceAll(s[1..], pat, rep)
    else if |s| < |pat| then s
    else if s[..|pat|] == pat then rep + ReplaceAll(s[|pat|..], pat, rep)
    else [s[0]] + ReplaceAll(s[1..], pat, rep)
  }

  /** Replacing by a string of the same length keeps the length. */
  lemma {:induction false} ReplaceAllSameLength(s: string, pat: string, rep: string)
    requires |rep| == |pat|
    ensures |ReplaceAll(s, pat, rep)| == |s|
    decreases |s|
  {
    if |pat| == 0 {
      if |s| > 0 {
        ReplaceAllSameLength(s[1..], pat, rep);
      }
    } else if |s| < |pat| {
    } else if s[..|pat|] == pat {
      ReplaceAllSameLength(s[|pat|..], pat, rep);
    } else {
      ReplaceAllSameLength(s[1..], pat, rep);
    }
  }

  /**
   * Masking `pat` with asterisks either leaves the first `m` characters
   * alone or puts an asterisk among them.
   */
  lemma {:induction false} MaskedPrefix(s: string, pat: string, m: nat)
    requires 0 < |pat| && m <= |s|
    ensures |ReplaceAll(s, pat, Repeat('*', |pat|))| == |s|
    ensures var r := ReplaceAll(s, pat, Repeat('*', |pat|));
      r[..m] == s[..m] || '*' in r[..m]
    decreases |s|
  {
    var stars := Repeat('*', |pat|);
    ReplaceAllSameLength(s, pat, stars);
    var r := ReplaceAll(s, pat, stars);
    if m == 0 {
      assert r[..m] == s[..m];
    } else if |s| < |pat| {
    } else if s[..|pat|] == pat {
      assert r[0] == '*';
      assert r[..m][0] == '*';
    } else {
      MaskedPrefix(s[1..], pat, m - 1);
      var t := ReplaceAll(s[1..], pat, stars);
      assert r == [s[0]] + t;
      assert r[..m] == [s[0]] + t[..m - 1];
      assert s[..m] == [s[0]] + s[1..][..m - 1];
      if '*' in t[..m - 1] {
        var k :| 0 <= k < m - 1 && t[..m - 1][k] == '*';
        assert r[..m][k + 1] == '*';
      }
    }
  }

  lemma SliceHead(r: string, i: int, n: int)
    ensures 0 <= i < i + n <= |r| ==> r[i..i + n][0] == r[i]
  {
  }

  /** Asterisks put in front of a key-free string introduce no key. */
  lemma NoKeyAfterStars(stars: string, t: string, key: string)
    requires 0 < |key| == |stars| && '*' !in key
    requires forall i :: 0 <= i < |stars| ==> stars[i] == '*'
    requires !Contains(t, key)
    ensures !Contains(stars + t, key)
  {
    var r := stars + t;
    if Contains(r, key) {
      var i :| 0 <= i <= |r| - |key| && OccursAt(r, key, i);
      if i < |key| {
        SliceHead(r, i, |key|);
      } else {
        assert r[i..i + |key|] == t[i - |key|..i - |key| + |key|];
        ContainsAt(t, key, i - |key|);
      }
    }
  }

  /** One character put in front of a key-free string introduces no key unless it starts one. */
  lemma NoKeyAfterChar(c: char, t: string, key: string)
    requires 0 < |key| && !Contains(t, key)
    requires |key| <= 1 + |t| ==> ([c] + t)[..|key|] != key
    ensures !Contains([c] + t, key)
  {
    var r := [c] + t;
    if Contains(r, key) {
      var i :| 0 <= i <= |r| - |key| && OccursAt(r, key, i);
      if i > 0 {
        assert r[i..i + |key|] == t[i - 1..i - 1 + |key|];
        ContainsAt(t, key, i - 1);
      }
    }
  }

  /**
   * After masking every occurrence of a key with asterisks, the key no
   * longer occurs, provided the key itself holds no asterisk.
   */
  lemma {:induction false} MaskedHasNoKey(s: string, key: string)
    requires 0 < |key| && '*' !in key
    ensures !Contains(ReplaceAll(s, key, Repeat('*', |key|)), key)
    decreases |s|
  {
    var stars := Repeat('*', |key|);
    var r := ReplaceAll(s, key, stars);
    if |s| < |key| {
      assert |r| < |key|;
    } else if s[..|key|] == key {
      MaskedHasNoKey(s[|key|..], key);
      NoKeyAfterStars(stars, ReplaceAll(s[|key|..], key, stars), key);
    } else {
      var t := ReplaceAll(s[1..], key, stars);
      MaskedHasNoKey(s[1..], key);
      MaskedPrefix(s, key, |key|);
      assert r == [s[0]] + t;
      NoKeyAfterChar(s[0], t, key);
    }
  }

  predicate IsDigit(c: char) {
    '0' <= c <= '9'
  }

  function DigitValue(c: char): (d: nat)
    requires IsDigit(c)
    ensures d < 10
  {
    c as int - '0' as int
  }

  function DigitChar(d: nat): (c: char)
    requires d < 10
    ensures IsDigit(c) && DigitValue(c) == d
  {
    ('0' as int + d) as char
  }

  /** Python's `str(n)` for a non-negative integer. */
  function NatToString(n: nat): (s: string)
    ensures 0 < |s|
    ensures forall i :: 0 <= i < |s| ==> IsDigit(s[i])
    ensures 1 < |s| ==> s[0] != '0'
  {
    if n < 10 then [DigitChar(n)] else NatToString(n / 10) + [DigitChar(n % 10)]
  }

  /** Decimal value of a digit string: Python's `int(s)` on digits. */
  function ParseDigits(s: string): nat
    requires forall i :: 0 <= i < |s| ==> IsDigit(s[i])
  {
    if |s| == 0 then 0
    else ParseDigits(s[..|s| - 1]) * 10 + DigitValue(s[|s| - 1])
  }

  /** `int(str(n)) == n`: the decimal rendering loses nothing. */
  lemma {:induction false} NatToStringRoundTrip(n: nat)
    ensures ParseDigits(NatToString(n)) == n
  {
    if n >= 10 {
      NatToStringRoundTrip(n / 10);
      var s := NatToString(n);
      assert s[..|s| - 1] == NatToString(n / 10);
    }
  }
}

=== FILE: tools.dfy ===
/** Dispatch from a tool instance to its class's `parameters` and `execute`. */
module Tools {
  import opened Wrappers
  import opened Base
  import Example
  import Weather

  /** What a successful `execute` returns. */
  datatype Value = Text(s: string) | Report(report: Weather.WeatherReport)

  /** The one parameter each tool class declares, required. */
  function RequiredParameter(k: Kind): string {
    match k
    case Echo => "message"
    case WeatherLookup(_) => "city"
  }

  /** `tool.parameters`: exactly one parameter, the tool's required one. */
  function Parameters(t: Tool): (decl: ParamDecl)
    ensures decl.Valid()
    ensures decl.keys == [RequiredParameter(t.kind)]
    ensures RequiredParameter(t.kind) in decl.entries && IsRequired(decl.entries[RequiredParameter(t.kind)])
  {
    match t.kind
    case Echo => Example.Parameters()
    case WeatherLookup(_) => Weather.Parameters()
  }

  /**
   * `tool.validate_params(kwargs)`: passes exactly when the tool's required
   * parameter is given, and otherwise names that parameter alone.
   */
  lemma ValidateRequired(t: Tool, kwargs: map<string, string>)
    ensures ValidateParams(Parameters(t), kwargs) ==
      if RequiredParameter(t.kind) in kwargs then None
      else Some("Missing required parameters: " + RequiredParameter(t.kind))
  {
    SingleRequired(Parameters(t), RequiredParameter(t.kind), kwargs);
  }

  /**
   * The `TypeError` Python raises when `execute(self, **kwargs)` is called
   * with a keyword argument named `self`: the call binds `self` twice, and
   * the message names the tool's class.
   */
  function SelfCollision(t: Tool): ToolError {
    match t.kind
    case Echo => Raised("ExampleTool.execute() got multiple values for argument 'self'")
    case WeatherLookup(_) => Raised("WeatherTool.execute() got multiple values for argument 'self'")
  }

  /**
   * `tool.execute(**kwargs)`. A `self` keyword fails the call before the
   * body runs. `server` stands for the weather service and the network
   * between; only the weather tool consults it.
   */
  function Execute(t: Tool, kwargs: map<string, string>, server: Weather.Request -> Weather.Response): (r: Result<Value, ToolError>)
    ensures "self" in kwargs ==> r == Failure(SelfCollision(t))
    ensures "self" !in kwargs && t.kind == Echo ==> r == Success(Text(Example.Execute(kwargs)))
    ensures "self" !in kwargs && t.kind.WeatherLookup? ==>
      match Weather.Execute(t.kind.apiKey, kwargs, server)
      case Success(report) => r == Success(Report(report))
      case Failure(e) => r == Failure(e)
  {
    if "self" in kwargs then Failure(SelfCollision(t))
    else
      match t.kind
      case Echo => Success(Text(Example.Execute(kwargs)))
      case WeatherLookup(apiKey) =>
        var report :- Weather.Execute(apiKey, kwargs, server);
        Success(Report(report))
  }
}

=== FILE: weather.dfy ===
/**
 * `WeatherTool`: the pure parts of a tool that asks a weather service for
 * the current weather in a US city. The HTTP exchange is a parameter.
 */
module Weather {
  import opened Wrappers
  import opened Strings
  import opened Dicts
  import opened Base

  const Name := "weather"
  const Description := "Get current weather for a US city"
  const BaseUrl := "https://api.weatherapi.com/v1"
  const KeyMissingMessage := "WEATHER_API_KEY not found in environment. Please add it to your .env file."
  const KeyFormatMessage := "Invalid API key format"
  const MinKeyLength := 16
  const CountrySuffix := ", United States of America"
  const InvalidKeyMessage := "Invalid API key"
  const ApiErrorPrefix := "API error: "
  const UnknownError := "Unknown error"
  const StatusPrefix := "API returned status code "
  const MissingDataPrefix := "Missing data in API response: "
  const UnexpectedPrefix := "Unexpected error: "

  /** `WeatherTool()`, given what the environment holds for WEATHER_API_KEY. */
  function Instance(apiKey: Option<string>): (t: Tool)
    ensures t.name == Name && t.description == Description && t.kind == WeatherLookup(apiKey)
  {
    Init(Name, Description, WeatherLookup(apiKey))
  }

  /**
   * `WeatherTool._validate_api_key`: succeeds with the key exactly when a
   * key of at least 16 characters is present; an absent or empty key is
   * "not found", a shorter one has an invalid format.
   */
  function ValidateApiKey(apiKey: Option<string>): (r: Result<string, ToolError>)
    ensures r.Success? <==> apiKey.Some? && |apiKey.value| >= MinKeyLength
    ensures r.Success? ==> r.value == apiKey.value
    ensures (apiKey.None? || apiKey == Some("")) ==> r == Failure(Raised(KeyMissingMessage))
    ensures apiKey.Some? && 0 < |apiKey.value| < MinKeyLength ==> r == Failure(Raised(KeyFormatMessage))
  {
    match apiKey
    case None => Failure(Raised(KeyMissingMessage))
    case Some(key) =>
      if key == "" then Failure(Raised(KeyMissingMessage))
      else if |key| < MinKeyLength then Failure(Raised(KeyFormatMessage))
      else Success(key)
  }

  /** `WeatherTool.parameters`: exactly one parameter, `city`, required. */
  function Parameters(): (decl: ParamDecl)
    ensures decl.Valid()
    ensures decl.keys == ["city"]
    ensures Get(decl, "city").Some? && IsRequired(Get(decl, "city").value)
  {
    Dict(["city"], map["city" := ParamSpec("string", "US city name (can include state e.g. 'Portland, OR')", Some(true))])
  }

  /** The query sent to the service: the city, pinned to the United States. */
  function LocationQuery(city: string): (q: string)
    ensures |q| == |city| + |CountrySuffix|
    ensures q[..|city|] == city && q[|city|..] == CountrySuffix
  {
    city + CountrySuffix
  }

  /** A GET request: the URL and its query parameters, in order. */
  datatype Request = Request(url: string, params: Dict<string>)

  /** The request `execute` sends for a validated key and a city. */
  function BuildRequest(key: string, city: string): (req: Request)
    ensures req.url == BaseUrl + "/current.json"
    ensures req.params.Valid() && req.params.keys == ["key", "q", "aqi"]
    ensures Get(req.params, "key") == Some(key)
    ensures Get(req.params, "q") == Some(LocationQuery(city))
    ensures Get(req.params, "aqi") == Some("no")
  {
    var params := Dict(["key", "q", "aqi"], map["key" := key, "q" := LocationQuery(city), "aqi" := "no"]);
    Request(BaseUrl + "/current.json", params)
  }

  /**
   * The parameters as logged: `{**params, "key": "*" * len(params["key"])}`.
   * The key keeps its place and becomes asterisks of the same length;
   * every other parameter is unchanged.
   */
  function MaskParams(params: Dict<string>): (m: Dict<string>)
    requires params.Valid() && "key" in params.entries
    ensures m.Valid() && m.keys == params.keys
    ensures Get(m, "key") == Some(Repeat('*', |params.entries["key"]|))
    ensures forall k :: k != "key" ==> Get(m, k) == Get(params, k)
  {
    Put(params, "key", Repeat('*', |params.entries["key"]|))
  }

  /**
   * The response URL as logged: `url.replace(key, "*" * len(key))`. The
   * length is kept, and no occurrence of an asterisk-free key survives.
   */
  function MaskUrl(url: string, key: string): (r: string)
    ensures |r| == |url|
    ensures 0 < |key| && '*' !in key ==> !Contains(r, key)
  {
    var r := ReplaceAll(url, key, Repeat('*', |key|));
    ReplaceAllSameLength(url, key, Repeat('*', |key|));
    assert 0 < |key| && '*' !in key ==> !Contains(r, key) by {
      if 0 < |key| && '*' !in key {
        MaskedHasNoKey(url, key);
      }
    }
    r
  }

  /**
   * A decoded JSON value. Values other than strings and objects (numbers,
   * booleans, null, arrays) are kept opaque with their Python type name;
   * every non-string value carries the text Python's `str()` gives it.
   */
  datatype Json =
    | JStr(s: string)
    | JObj(fields: map<string, Json>, text: string)
    | JOther(typeName: string, text: string)

  function TypeName(j: Json): string {
    match j
    case JStr(_) => "str"
    case JObj(_, _) => "dict"
    case JOther(t, _) => t
  }

  /** Python's `str(j)`. */
  function Str(j: Json): string {
    match j
    case JStr(s) => s
    case JObj(_, text) => text
    case JOther(_, text) => text
  }

  /** The body of a response: decoded JSON, or the decoder's error message. */
  datatype Body = Decoded(json: Json) | Undecodable(reason: string)

  datatype Response = Response(status: nat, body: Body)

  /** Python exceptions raised while reading a decoded body. */
  datatype PyError = PyKeyError(key: string) | PyTypeError(text: string) | PyAttributeError(text: string)

  /** `j[key]` */
  function Subscript(j: Json, key: string): (r: Result<Json, PyError>)
    ensures r.Success? <==> j.JObj? && key in j.fields
    ensures r.Success? ==> r.value == j.fields[key]
    ensures j.JObj? && key !in j.fields ==> r == Failure(PyKeyError(key))
    ensures !j.JObj? ==> r.Failure? && r.error.PyTypeError?
  {
    match j
    case JObj(fields, _) => if key in fields then Success(fields[key]) else Failure(PyKeyError(key))
    case JStr(_) => Failure(PyTypeError("string indices must be integers, not 'str'"))
    case JOther(t, _) =>
      if t == "list" then Failure(PyTypeError("list indices must be integers or slices, not str"))
      else Failure(PyTypeError("'" + t + "' object is not subscriptable"))
  }

  /** `j[keys[0]][keys[1]]...` */
  function Path(j: Json, keys: seq<string>): Result<Json, PyError>
  {
    if |keys| == 0 then Success(j)
    else
      var next :- Subscript(j, keys[0]);
      Path(next, keys[1..])
  }

  /** `j.get(key, default)` */
  function GetOr(j: Json, key: string, default: Json): (r: Result<Json, PyError>)
    ensures j.JObj? ==> r == Success(if key in j.fields then j.fields[key] else default)
    ensures !j.JObj? ==> r == Failure(PyAttributeError("'" + TypeName(j) + "' object has no attribute 'get'"))
  {
    match j
    case JObj(fields, _) => Success(if key in fields then fields[key] else default)
    case _ => Failure(PyAttributeError("'" + TypeName(j) + "' object has no attribute 'get'"))
  }

  const EmptyObject := JObj(map[], "{}")

  /**
   * `str(data.get("error", {}).get("message", "Unknown error"))`: the
   * service's message, or "Unknown error" when the error object or its
   * message is absent; `.get` on anything but an object fails.
   */
  function ApiErrorDetail(data: Json): (r: Result<string, PyError>)
    ensures !data.JObj? ==> r == Failure(PyAttributeError("'" + TypeName(data) + "' object has no attribute 'get'"))
    ensures data.JObj? && "error" !in data.fields ==> r == Success(UnknownError)
    ensures data.JObj? && "error" in data.fields && data.fields["error"].JObj? ==>
      var err := data.fields["error"].fields;
      r == Success(if "message" in err then Str(err["message"]) else UnknownError)
    ensures data.JObj? && "error" in data.fields && !data.fields["error"].JObj? ==>
      r.Failure? && r.error.PyAttributeError?
  {
    var err :- GetOr(data, "error", EmptyObject);
    var message :- GetOr(err, "message", JStr(UnknownError));
    Success(Str(message))
  }

  /** The result `execute` returns; the numeric fields pass through as they were decoded. */
  datatype WeatherReport = WeatherReport(
    location: Json, region: Json, tempF: Json, condition: Json, humidity: Json, windMph: Json)

  /** The six paths the result dictionary is read from, in the order the source reads them. */
  const ReportPaths: seq<seq<string>> := [
    ["location", "name"], ["location", "region"], ["current", "temp_f"],
    ["current", "condition", "text"], ["current", "humidity"], ["current", "wind_mph"]]

  /** Every path before the `i`-th resolves, and the `i`-th does not. */
  predicate FirstFailingPath(data: Json, i: int) {
    && 0 <= i < |ReportPaths|
    && Path(data, ReportPaths[i]).Failure?
    && forall j :: 0 <= j < i ==> Path(data, ReportPaths[j]).Success?
  }

  /**
   * The result dictionary: it is built exactly when all six paths resolve,
   * and then holds the values found there.
   */
  function ExtractReport(data: Json): (r: Result<WeatherReport, PyError>)
    ensures r.Success? <==> forall i :: 0 <= i < |ReportPaths| ==> Path(data, ReportPaths[i]).Success?
    ensures r.Success? ==> r.value == WeatherReport(
      Path(data, ReportPaths[0]).value, Path(data, ReportPaths[1]).value, Path(data, ReportPaths[2]).value,
      Path(data, ReportPaths[3]).value, Path(data, ReportPaths[4]).value, Path(data, ReportPaths[5]).value)
  {
    var location :- Path(data, ReportPaths[0]);
    var region :- Path(data, ReportPaths[1]);
    var tempF :- Path(data, ReportPaths[2]);
    var condition :- Path(data, ReportPaths[3]);
    var humidity :- Path(data, ReportPaths[4]);
    var windMph :- Path(data, ReportPaths[5]);
    Success(WeatherReport(location, region, tempF, condition, humidity, windMph))
  }

  /** When the dictionary cannot be built, the error is the one the first failing path raises. */
  lemma FirstFailureRaised(data: Json)
    ensures ExtractReport(data).Failure? ==>
      exists i :: FirstFailingPath(data, i) && ExtractReport(data).error == Path(data, ReportPaths[i]).error
  {
    var p := ReportPaths;
    if Path(data, p[0]).Failure? {
      assert FirstFailingPath(data, 0);
    } else if Path(data, p[1]).Failure? {
      assert FirstFailingPath(data, 1);
    } else if Path(data, p[2]).Failure? {
      assert FirstFailingPath(data, 2);
    } else if Path(data, p[3]).Failure? {
      assert FirstFailingPath(data, 3);
    } else if Path(data, p[4]).Failure? {
      assert FirstFailingPath(data, 4);
    } else if Path(data, p[5]).Failure? {
      assert FirstFailingPath(data, 5);
    }
  }

  /**
   * What becomes of an exception raised while reading the body: a
   * `KeyError` is reported as missing data, anything else as an unexpected
   * error. `str(KeyError(k))` is the key's `repr`, which is `k` in single
   * quotes for a key without quotes, backslashes or control characters;
   * only the fixed field names of the paths above reach it.
   */
  function ReadFailure(e: PyError): (r: ToolError)
    ensures r.Raised?
    ensures e.PyKeyError? ==> r.message == MissingDataPrefix + "'" + e.key + "'"
    ensures !e.PyKeyError? ==> r.message == UnexpectedPrefix + e.text
  {
    match e
    case PyKeyError(k) => Raised(MissingDataPrefix + "'" + k + "'")
    case PyTypeError(t) => Raised(UnexpectedPrefix + t)
    case PyAttributeError(t) => Raised(UnexpectedPrefix + t)
  }

  /**
   * The status-code classification and result extraction of `execute`:
   * 401 is an invalid key, 400 carries the service's message, any other
   * status but 200 is reported by number, and only 200 yields a report.
   */
  function Classify(resp: Response): (r: Result<WeatherReport, ToolError>)
    ensures r.Success? ==> resp.status == 200
    ensures r.Failure? ==> r.error.Raised?
    ensures resp.status == 401 ==> r == Failure(Raised(InvalidKeyMessage))
    ensures resp.status !in {200, 400, 401} ==> r == Failure(Raised(StatusPrefix + NatToString(resp.status)))
    ensures (resp.status == 200 || resp.status == 400) && resp.body.Undecodable? ==>
      r == Failure(Raised(UnexpectedPrefix + resp.body.reason))
    ensures resp.status == 400 && resp.body.Decoded? && ApiErrorDetail(resp.body.json).Failure? ==>
      r == Failure(ReadFailure(ApiErrorDetail(resp.body.json).error))
    ensures resp.status == 400 && resp.body.Decoded? && ApiErrorDetail(resp.body.json).Success? ==>
      r == Failure(Raised(ApiErrorPrefix + ApiErrorDetail(resp.body.json).value))
  {
    if resp.status == 401 then Failure(Raised(InvalidKeyMessage))
    else if resp.status == 400 then
      match resp.body
      case Undecodable(reason) => Failure(Raised(UnexpectedPrefix + reason))
      case Decoded(data) =>
        match ApiErrorDetail(data)
        case Failure(e) => Failure(ReadFailure(e))
        case Success(detail) => Failure(Raised(ApiErrorPrefix + detail))
    else if resp.status != 200 then Failure(Raised(StatusPrefix + NatToString(resp.status)))
    else
      match resp.body
      case Undecodable(reason) => Failure(Raised(UnexpectedPrefix + reason))
      case Decoded(data) =>
        match ExtractReport(data)
        case Failure(e) => Failure(ReadFailure(e))
        case Success(report) => Success(report)
  }

  /** A 400 reply reports the service's error message, or "Unknown error" when it gives none. */
  lemma BadRequestMessage(fields: map<string, Json>, text: string)
    ensures "error" !in fields ==>
      Classify(Response(400, Decoded(JObj(fields, text)))) == Failure(Raised(ApiErrorPrefix + UnknownError))
    ensures "error" in fields && fields["error"].JObj? && "message" !in fields["error"].fields ==>
      Classify(Response(400, Decoded(JObj(fields, text)))) == Failure(Raised(ApiErrorPrefix + UnknownError))
    ensures "error" in fields && fields["error"].JObj? && "message" in fields["error"].fields ==>
      Classify(Response(400, Decoded(JObj(fields, text))))
      == Failure(Raised(ApiErrorPrefix + Str(fields["error"].fields["message"])))
  {
  }

  /** At most one path is the first to fail. */
  lemma FirstFailingPathUnique(data: Json, i: int, j: int)
    requires FirstFailingPath(data, i) && FirstFailingPath(data, j)
    ensures i == j
  {
  }

  /**
   * A 200 reply with a decoded body yields a report exactly when all six
   * paths resolve, and the report then holds the values found there;
   * fields beyond these are never read.
   */
  lemma OkReplyReadsPaths(data: Json)
    ensures Classify(Response(200, Decoded(data))).Success? <==>
      forall i :: 0 <= i < |ReportPaths| ==> Path(data, ReportPaths[i]).Success?
    ensures Classify(Response(200, Decoded(data))).Success? ==>
      Classify(Response(200, Decoded(data))).value == WeatherReport(
        Path(data, ReportPaths[0]).value, Path(data, ReportPaths[1]).value, Path(data, ReportPaths[2]).value,
        Path(data, ReportPaths[3]).value, Path(data, ReportPaths[4]).value, Path(data, ReportPaths[5]).value)
  {
  }

  /** A 200 reply reports the error of the first path that fails to resolve. */
  lemma FirstFailureReported(data: Json, i: int)
    requires FirstFailingPath(data, i)
    ensures Classify(Response(200, Decoded(data))) == Failure(ReadFailure(Path(data, ReportPaths[i]).error))
  {
    assert !Path(data, ReportPaths[i]).Success?;
    FirstFailureRaised(data);
    var j :| FirstFailingPath(data, j) && ExtractReport(data).error == Path(data, ReportPaths[j]).error;
    FirstFailingPathUnique(data, i, j);
  }

  /** A key missing at the first failing read is reported, quoted, as missing data. */
  lemma FirstMissingKeyReported(data: Json, i: int, k: string)
    requires FirstFailingPath(data, i) && Path(data, ReportPaths[i]) == Failure(PyKeyError(k))
    ensures Classify(Response(200, Decoded(data))) == Failure(Raised(MissingDataPrefix + "'" + k + "'"))
  {
    FirstFailureReported(data, i);
  }

  /** The body the service sends for a report, with arbitrary `str()` texts for its objects. */
  function EncodeReport(r: WeatherReport, texts: seq<string>): Json
    requires |texts| == 4
  {
    JObj(map[
      "location" := JObj(map["name" := r.location, "region" := r.region], texts[1]),
      "current" := JObj(map[
        "temp_f" := r.tempF,
        "condition" := JObj(map["text" := r.condition], texts[3]),
        "humidity" := r.humidity,
        "wind_mph" := r.windMph], texts[2])], texts[0])
  }

  /** A 200 reply carrying a complete body yields exactly the report it encodes. */
  lemma ReportRoundTrip(r: WeatherReport, texts: seq<string>)
    requires |texts| == 4
    ensures Classify(Response(200, Decoded(EncodeReport(r, texts)))) == Success(r)
  {
    var data := EncodeReport(r, texts);
    var loc := data.fields["location"];
    var cur := data.fields["current"];
    assert Path(data, ["location", "name"]) == Success(r.location) by {
      assert Path(loc, ["name"]) == Path(r.location, []);
    }
    assert Path(data, ["location", "region"]) == Success(r.region) by {
      assert Path(loc, ["region"]) == Path(r.region, []);
    }
    assert Path(data, ["current", "temp_f"]) == Success(r.tempF) by {
      assert Path(cur, ["temp_f"]) == Path(r.tempF, []);
    }
    assert Path(data, ["current", "condition", "text"]) == Success(r.condition) by {
      var cond := cur.fields["condition"];
      assert Path(cond, ["text"]) == Path(r.condition, []);
      assert Path(cur, ["condition", "text"]) == Path(cond, ["text"]);
    }
    assert Path(data, ["current", "humidity"]) == Success(r.humidity) by {
      assert Path(cur, ["humidity"]) == Path(r.humidity, []);
    }
    assert Path(data, ["current", "wind_mph"]) == Success(r.windMph) by {
      assert Path(cur, ["wind_mph"]) == Path(r.windMph, []);
    }
  }

  /** A 200 reply whose body lacks "location" reports that key as missing data. */
  lemma MissingLocationReported(fields: map<string, Json>, text: string)
    requires "location" !in fields
    ensures Classify(Response(200, Decoded(JObj(fields, text))))
            == Failure(Raised("Missing data in API response: 'location'"))
  {
    assert MissingDataPrefix + "'" + "location" + "'" == "Missing data in API response: 'location'";
  }

  /** A 200 reply with a complete "location" but no "current" reports "current" as missing data. */
  lemma MissingCurrentReported(fields: map<string, Json>, text: string)
    requires "location" in fields && fields["location"].JObj?
    requires "name" in fields["location"].fields && "region" in fields["location"].fields
    requires "current" !in fields
    ensures Classify(Response(200, Decoded(JObj(fields, text))))
            == Failure(Raised("Missing data in API response: 'current'"))
  {
    var data := JObj(fields, text);
    var loc := fields["location"];
    assert Path(data, ReportPaths[0]).Success? by {
      assert Path(loc, ["name"]) == Path(loc.fields["name"], []);
    }
    assert Path(data, ReportPaths[1]).Success? by {
      assert Path(loc, ["region"]) == Path(loc.fields["region"], []);
    }
    assert Path(data, ReportPaths[2]) == Failure(PyKeyError("current"));
    assert FirstFailingPath(data, 2);
    FirstMissingKeyReported(data, 2, "current");
    assert MissingDataPrefix + "'" + "current" + "'" == "Missing data in API response: 'current'";
  }

  /**
   * `WeatherTool.execute`: check the key, read `city` (a missing one raises
   * `KeyError`), send the request and classify the reply.
   */
  function Execute(apiKey: Option<string>, kwargs: map<string, string>, server: Request -> Response): (r: Result<WeatherReport, ToolError>)
    ensures ValidateApiKey(apiKey).Failure? ==> r == Failure(ValidateApiKey(apiKey).error)
    ensures ValidateApiKey(apiKey).Success? && "city" !in kwargs ==> r == Failure(KeyError("city"))
    ensures r.Success? ==> "city" in kwargs && apiKey.Some? && |apiKey.value| >= MinKeyLength
  {
    var key :- ValidateApiKey(apiKey);
    if "city" !in kwargs then Failure(KeyError("city"))
    else Classify(server(BuildRequest(key, kwargs["city"])))
  }

  /** A bad key is reported even when `city` is missing too. */
  lemma BadKeyReportedFirst(apiKey: Option<string>, server: Request -> Response)
    requires apiKey.None? || |apiKey.value| < MinKeyLength
    ensures Execute(apiKey, map[], server).Failure?
    ensures Execute(apiKey, map[], server).error.Raised?
    ensures Execute(apiKey, map[], server).error.message in {KeyMissingMessage, KeyFormatMessage}
  {
  }

  /** With a good key and a city, the service is asked about that city in the United States. */
  lemma ExecuteAsksForCity(key: string, kwargs: map<string, string>, server: Request -> Response)
    requires |key| >= MinKeyLength && "city" in kwargs
    ensures var req := BuildRequest(key, kwargs["city"]);
      && Get(req.params, "q") == Some(kwargs["city"] + ", United States of America")
      && Execute(Some(key), kwargs, server) == Classify(server(req))
  {
  }
}

=== FILE: wrappers.dfy ===
/** Failure-carrying datatypes used throughout the model. */
module Wrappers {

  /** A value that may be absent: Python's `Optional[T]`. */
  datatype Option<+T> = None | Some(value: T)

  /** Either a value or the exception that replaced it; usable with `:-`. */
  datatype Result<+R, +E> = Success(value: R) | Failure(error: E) {

    predicate IsFailure() {
      Failure?
    }

    function PropagateFailure<U>(): Result<U, E>
      requires Failure?
    {
      Failure(error)
    }

    function Extract(): R
      requires Success?
    {
      value
    }
  }
}
